=== FILE: README.md ===
# SQLite manager and signing endpoint, modelled in Dafny

This project models the core of a small Flask service that signs order
strings:

- `SQLiteManager` (Database.py), a wrapper object around one SQLite
  connection. It builds CREATE TABLE and INSERT statements from Python
  dicts. It runs statements and commits them, swallowing failures. It
  turns fetched rows into dicts and lists the tables of a database.
- `get_user_dict` (FlaskV3.py, repeated in FlaskV4.py). It reads the
  token file line by line, strips each line, splits it on `,` and stores
  `token -> name` in a dict.
- The `/test` handler in three versions:
  - FlaskV2.py: no authentication;
  - FlaskV3.py: the token must be a key of the token-file dict;
  - FlaskV4.py: the token must match the `UUID` column of table `user`.

  Each version answers with the MD5 digest of the order string followed
  by the salt `guozhch2346`.

Files:

- `wrappers.dfy`: `Option` and `Result`.
- `pystr.dfy` (module `PyStr`): the Python string operations used:
  - `str.strip()`, with the `str.isspace()` character set;
  - `str.split(c)`;
  - `sep.join(parts)`;
  - counting a character.
- `pyfile.dfy` (module `PyFile`): iterating over a file opened in text
  mode. Universal newlines turn `\r\n` and `\r` into `\n`, and each line
  runs up to and including its `\n`.
- `pydict.dfy` (module `PyDict`): Python's insertion-ordered `dict` as a
  sequence of entries. It covers `d[k] = v`, `dict(pairs)`, `d.get(k)`
  and `zip`.
- `database.dfy` (module `Database`):
  - the SQL text builders and the shaping of rows, as functions;
  - `SQLiteManager` as a class. Its methods update the connection state
    and a log of the statements the engine carried out.
- `token_file.dfy` (module `TokenFile`): `get_user_dict` as a loop. It is
  proved against the function `UserDict`.
- `signing.dfy` (module `Signing`): the three handlers as functions from
  a request to a response plus the effects the handler had. The effects
  are reading the token file, querying the `user` table and reading the
  body. This module also proves that V3 and V4 agree when the token
  file and the `user` table hold the same users.

The SQLite engine is not modelled. Each manager method takes what the
engine does as parameters:

- `canOpen`: whether `sqlite3.connect` succeeds;
- `outcome`: whether `cursor.execute` raises, whether the statement runs
  but `conn.commit()` raises, or whether both succeed. For
  `cursor.executemany` it also says how many parameter tuples ran
  before one raised;
- `answer`: whether the query raised, and otherwise the cursor's
  description and the rows it fetched.

MD5 is a function parameter, and so is the engine V4 queries. The token
file is given by its decoded text. `PyFile.ReadLines` gives the lines
that `for line in f` yields from it.

The model follows the code's own behaviour in these places:

- Closing a manager does not reset `conn`. Later calls therefore do not
  reconnect, and every statement on the closed connection raises inside
  the method's `try` and is swallowed.
- `insert_many` takes its columns from the first record only.
- `query` returns `[]` when the statement has no result description.
  Iterating over `None` raises, and the method swallows the error.
- `get_all_tables` raises `KeyError` when a row lacks `name`.
- In V4, a result row with fewer than two columns raises `IndexError`
  after the digest has been computed. Flask answers that with a server
  error.
- In V3, any malformed line in the token file turns every request that
  carries a token into a server error.
- `executemany` inserts the parameter tuples one at a time. When one
  of them raises, the rows before it stay in the open transaction, and
  the next successful commit of any method makes them permanent.
- V3 and V4 are shown to agree only for users the token file can hold
  unchanged: unique UUIDs, no comma or line break in a UUID or a name,
  no whitespace at the start of a UUID and none at the end of a name.
  Outside these conditions they differ:
  - `strip()` removes whitespace at the end of a name from the file's
    line, while the `user` table keeps it. V3 then reports the name
    without it and V4 with it.
  - A line break in a UUID or a name splits the record over two lines
    of the file. Reading the file raises on the first line that does
    not split into exactly two fields. For a UUID and a name without
    commas, that is the first line when the break is in the UUID and
    the second when it is in the name.
    Commas change this. A comma in the UUID before its break, or one
    in the name after its break, lets both lines unpack, and the file
    gains a token no user has. A comma in the name before its break
    makes the first line raise.

## Model

| member | source | states |
|---|---|---|
| Database.SQLiteManager.constructor | Database.py:10-19 | a new manager keeps its path, `my_database.db` when none is given, and has no connection and no cursor |
| Database.SQLiteManager.Connect | Database.py:21-30 | returns True exactly when the file can be opened; then `conn` and `cursor` refer to a new, live connection; otherwise nothing changes |
| Database.SQLiteManager.ConnectIfUnset | Database.py:54-55 | connects only when no connection is set; an existing connection, even a closed one, is kept |
| Database.SQLiteManager.CreateTable | Database.py:46-66 | after the lazy connect, the log gains `Carried` of the CREATE TABLE statement built from the mapping: the statement and its commit; nothing is logged when the connection is not live or `execute` raises, and the statement alone when the commit raises |
| Database.ColumnsClauseFields | Database.py:58-59 | read back between its commas, the column clause `ColumnsClause` builds for `CreateTableSql` from a non-empty mapping with no comma in its names or types gives every `"<name> <type>"` definition in mapping order, each after the first with the space that followed its comma |
| Database.SQLiteManager.InsertData | Database.py:68-88 | one INSERT whose column list is the record's keys, bound to the record's values in the same order, then a commit, as far as the engine carries them out (`Carried`) |
| Database.InsertPlaceholderCount | Database.py:79-81 | when neither the table name nor a column name holds a `?`, the INSERT statement `InsertSql` builds holds exactly one `?` per column |
| Database.PlaceholdersCount | Database.py:80 | the placeholder list `Placeholders` builds for `n` keys holds `n` question marks |
| Database.ColumnListCount | Database.py:79 | joining column names that hold no `?` adds none |
| Database.SQLiteManager.InsertMany | Database.py:90-116 | an empty list changes nothing, not even the connection; otherwise one batched INSERT with the first record's columns and one parameter tuple per record, in list order, then a commit, as `CarriedBatch` gives them; when a tuple raises, only the tuples before it are logged, and no commit |
| Database.SQLiteManager.Query | Database.py:118-153 | returns `Shape` of the fetched rows: one dict per row (`RowDict`) in fetch order, keyed by the cursor's column names; returns `[]` when the connection is not live, the statement raises or it has no description |
| Database.RowDict | Database.py:147 | `dict(zip(column_names, row))`; like every dict, it never holds a key twice |
| Database.ShapeEntries | Database.py:139-147 | with distinct column names and rows as wide as the description, there is one dict per row, in fetch order; dict `i` has the column names as keys and row `i`'s values as values |
| Database.RowDictEntries | Database.py:139-147 | with distinct column names and one value per column, a shaped row's keys are the column names and its values are the row's values, in order |
| Database.RowDictLastColumnWins | Database.py:147 | when the cursor repeats a column name, the dict keeps the value of the last such column |
| Database.SQLiteManager.Execute | Database.py:176-195 | on a live connection the statement is run and then committed, as far as the engine carries them out (`Carried`); on a closed one the log is unchanged |
| Database.SQLiteManager.GetTableInfo | Database.py:197-208 | the result of `query` on `PRAGMA table_info(<table>)` |
| Database.SQLiteManager.GetAllTables | Database.py:210-214 | queries `sqlite_master` for tables and returns the names without `sqlite_sequence`, or the KeyError on `name` |
| Database.WithoutSequenceTable | Database.py:214 | keeps only names from the input, never `sqlite_sequence`, and no more of them than the input has |
| Database.TableNames | Database.py:214 | fails with the KeyError exactly when some row lacks `name`; otherwise it gives at most one name per row |
| Database.WithoutSequenceTableCounts | Database.py:214 | every `sqlite_sequence` entry is dropped, and every other name stays as often as it occurs |
| Database.WithoutSequenceTableAppend | Database.py:214 | the filter works entry by entry, so it keeps the order of the names |
| Database.SQLiteManager.Close | Database.py:216-220 | closes the set connection, which is then no longer live; `conn` and `cursor` are kept, and nothing else changes |
| Database.SQLiteManager.Enter | Database.py:222-225 | connects unconditionally, even over a set connection, and returns the manager itself |
| Database.SQLiteManager.Exit | Database.py:227-229 | the same state change as `close` |
| Database.UseAfterClose | Database.py:54-55 | after `close`, an `execute` neither reconnects nor reaches the engine |
| PyStr.Strip | FlaskV3.py:34 | the stripped line is a slice of the line that removes only whitespace, and what is left neither starts nor ends with whitespace |
| PyStr.StripIdempotent | FlaskV3.py:34 | stripping twice is stripping once |
| PyStr.StripNewline | FlaskV3.py:33-34 | the newline a file line carries is removed by `strip()` |
| PyStr.StripPadding | FlaskV3.py:34 | any whitespace after the text, not just the newline, is removed by `strip()` |
| PyStr.Split | FlaskV3.py:35 | splitting on `,` gives one more field than there are commas, and no field holds a comma |
| PyStr.JoinSplit | FlaskV3.py:35 | `Join` of the fields with `,` gives the stripped line back |
| PyStr.SplitJoin | FlaskV3.py:35 | splitting the join of comma-free parts gives the parts back |
| PyStr.SplitCommaSpace | Database.py:58 | splitting a `", "`-join on `,` gives the parts back, each after the first with its leading space |
| PyStr.JoinCommaSpace | Database.py:58 | `", ".join` is `",".join` of the parts with a space put before each part after the first |
| PyStr.CountJoin | Database.py:79-80 | a join holds the parts' occurrences of a character plus those of its separators |
| PyDict.Get | FlaskV3.py:17 | the lookup fails exactly when the key is not among the dict's keys |
| PyDict.SetGet | FlaskV3.py:36 | after `d[k] = v`, `k` maps to `v` and every other key is unchanged |
| PyDict.SetKeys | FlaskV3.py:36 | `d[k] = v` keeps the key order and appends a new key last |
| PyDict.FromPairs | Database.py:147 | `dict(pairs)`; the result never holds a key twice |
| PyDict.FromPairsKeys | Database.py:147 | a key is in `dict(pairs)` exactly when some pair carries it |
| PyDict.FromPairsLastWins | Database.py:147 | the last pair with a key decides that key's value |
| PyDict.FromPairsOfDistinct | Database.py:147 | pairs with distinct keys make a dict of exactly those entries, in order |
| PyDict.Zip | Database.py:147 | `zip` pairs elements index by index and stops at the shorter input |
| PyFile.ReadLines | FlaskV3.py:32-33 | the lines `for line in f` yields from the file's text: none holds a carriage return, none is empty, and each but the last ends in its only line break |
| PyFile.ReadLinesShape | FlaskV3.py:32-33 | the lines read, put back together, are the file's text after newline translation |
| PyFile.ReadLinesConcat | FlaskV3.py:32-33 | a file written as complete lines reads back as exactly those lines |
| TokenFile.ParseLine | FlaskV3.py:34-35 | a line that does not unpack reports a field count other than 2; an accepted token and name hold no comma |
| TokenFile.UserDict | FlaskV3.py:31-37 | the dict built from the lines one after the other never holds a token twice |
| TokenFile.GetUserDict | FlaskV3.py:30-37 | the loop over the lines read from the file returns what `ReadUserDict`, `UserDict` of those lines, specifies: the dict, or the error of the first malformed line |
| TokenFile.ParseLineFields | FlaskV3.py:34-35 | a line is accepted exactly when its stripped text holds one comma; the token and the name are the text on either side, and a rejected line reports commas + 1 fields |
| TokenFile.BlankLineRaises | FlaskV3.py:34-35 | a blank line splits into one field and raises |
| TokenFile.ParseLinePadded | FlaskV3.py:34-35 | for a non-empty token without a comma or leading whitespace and a name without a comma or trailing whitespace, the line `token,name` followed by any whitespace reads back as that token and name |
| TokenFile.ParseLineRoundTrip | FlaskV3.py:33-35 | the line `token,name\n` reads back as that token and name when neither holds a comma and the text has no whitespace at its ends |
| TokenFile.UserDictSucceeds | FlaskV3.py:32-37 | reading the file succeeds exactly when every line splits into two fields |
| TokenFile.UserDictFirstError | FlaskV3.py:32-37 | the error names the first malformed line and its field count; every earlier line is well formed |
| TokenFile.UserDictFromEntries | FlaskV4.py:37-44 | on a well-formed file, the dict is `dict` of the lines' pairs in file order |
| TokenFile.UserDictKeys | FlaskV4.py:37-44 | the dict's keys are exactly the tokens of the lines |
| TokenFile.UserDictLastWins | FlaskV4.py:37-44 | when a token appears on several lines, the last of them gives its name |
| Signing.HandleV2 | FlaskV2.py:12-20 | V2's handler; it always reads the body |
| Signing.HandleV3 | FlaskV3.py:13-28 | V3's handler; it touches nothing without a token, reads the token file first, and reads the body only on the way to a signature or a bad-body error |
| Signing.HandleV4 | FlaskV4.py:14-35 | V4's handler; it touches nothing without a token, queries the `user` table first, and never signs without reading the body |
| Signing.V2Outcome | FlaskV2.py:12-20 | signs exactly when the order string is present and non-empty, with the digest of the string followed by the salt and no user; otherwise a bad-body error |
| Signing.SaltedMessageInjective | FlaskV2.py:17 | different order strings never give MD5 the same input |
| Signing.V3TokenFirst | FlaskV3.py:13-15 | a missing or empty token is refused before the file or the body is read |
| Signing.V3ExtendsV2 | FlaskV3.py:16-28 | a file that fails to parse gives a server error; a token missing from the dict is refused without reading the body; a known token gives V2's answer with the user's name added |
| Signing.V3SignsExactly | FlaskV3.py:13-28 | V3 signs exactly when the token is present, the file parses, the token is a key and the order string is present; the digest is `Sign`, MD5 of the order string followed by the salt, and the user is the name stored for the token |
| Signing.V3MalformedFile | FlaskV3.py:16-18 | one malformed line anywhere makes every request that carries a token a server error |
| Signing.V3LastLineWins | FlaskV3.py:16-28 | the user reported is the name on the last line carrying the token |
| Signing.V4TokenFirst | FlaskV4.py:14-16 | a missing or empty token is refused before the database or the body is touched |
| Signing.V4LookupFirst | FlaskV4.py:17-25 | a present token is first looked up with `SELECT * FROM user WHERE UUID=?` bound to the token; an empty result is refused before the body is read |
| Signing.V4ExtendsV2 | FlaskV4.py:24-35 | once the lookup returns a row, V4 answers as V2 does with the row's second column added; a row of fewer than two columns turns a success into a server error |
| Signing.V4SignsExactly | FlaskV4.py:14-35 | V4 signs exactly when the token is present, the lookup returns a row of at least two columns and the order string is present; the digest is `Sign` of the order string, and the user is the second column of the first row |
| Signing.FileParses | FlaskV3.py:30-37 | the token file written for users with unique UUIDs, no comma or line break in a UUID or a name, no whitespace at the start of a UUID and none at the end of a name reads back as exactly the lines written, and as exactly their UUID-to-name dict |
| Signing.LinesParse | FlaskV3.py:34-36 | the users' lines parse into exactly their UUID-to-name dict |
| Signing.BrokenNameBreaksFile | FlaskV3.py:32-35 | for a UUID and a name without commas, a UUID without leading whitespace, and a name with one line break, no whitespace just before it and non-empty text after it with no whitespace at its ends, such a name splits its record over two lines of the file, and reading the file then raises on the second line |
| Signing.BrokenUuidBreaksFile | FlaskV3.py:32-35 | for a UUID and a name without commas, and a UUID with one line break and non-empty text before it with no whitespace at its ends, such a UUID splits its record over two lines of the file, and reading the file then raises on the first line |
| Signing.PaddedNameDiverges | FlaskV3.py:34-37 | for a name ending in a space, V3 reports the name without the space and V4 with it, so their responses differ |
| Signing.FileAndTableAgree | FlaskV4.py:17-35 | with the same users in the token file and in the `user` table, V3 and V4 give every request the same response, for users with unique UUIDs, no comma or line break in a UUID or a name, no whitespace at the start of a UUID and none at the end of a name |
| Signing.KnownUserAgrees | FlaskV4.py:24-35 | under the same conditions on the users, the token of a listed user gets the same response from V3 and V4 |
| Signing.UnknownTokenAgrees | FlaskV4.py:24-25 | under the same conditions on the users, a token no user has is refused by both V3 and V4 |

## Left out

- FlaskV1.py is not part of this model.
- `query_with_pandas` (Database.py:155-174) is left out. It hands the
  query to pandas, whose DataFrame construction is outside what the
  model describes.
- `create_database` (Database.py:32-44) is left out. It deletes the
  database file through the operating system and then calls `connect`,
  which is modelled.
- The sample functions and the `__main__` block of Database.py are left
  out. They are demonstration code, not part of the manager.
- The SQL engine is left out. Whether a statement succeeds, what it
  fetches, `lastrowid` and the effect of a commit on the stored data are
  parameters or are not represented. The log records what the engine
  carried out. A statement whose `execute` raised is not recorded, and
  one whose commit raised is recorded without a `Commit`. A batch whose
  tuple raised is recorded with the tuples that ran before it.
- `query` and `execute` call `cursor.execute(sql)` when `params` is
  empty or missing. The model logs `Exec(sql, params)` with the empty
  parameter list, which SQLite treats the same way.
- Values of type REAL are left out, because floating point is outside
  the model. NULL, INTEGER, TEXT and BLOB are modelled.
- The console messages of every method are left out.
- MD5 is an abstract function parameter. Its digest algorithm is not
  modelled.
- Signing.HandleV4: the user it reports is whatever value the table's
  second column holds. When that is a BLOB, the model answers
  `Signed` with a `Blob` user, while Flask's `jsonify` cannot encode
  `bytes` and the service answers with a server error.
- Flask's request parsing and JSON encoding are left out. A request is
  the pair of optional strings the handler reads, so a non-string
  `order_string` and a body that is not JSON are not modelled.
- In V3, an error opening `db.txt` is not modelled. Neither is a file
  that is not valid UTF-8, whose decoding raises. The file is given by
  its decoded text.
- In V4, failures of `sqlite3.connect` and of the query itself are not
  modelled. The lookup is a function parameter, and closing that
  connection is not tracked.
- Signing.HandleV2: a present order string always signs. In Python, an
  order string holding a lone surrogate (the JSON string `"\ud800"`)
  makes `encode('utf-8')` raise, and Flask answers with a server error.
  Dafny strings hold Unicode scalar values only, so that input cannot
  be expressed.
- Signing.HandleV3: the same lone-surrogate server error is not modelled.
- Signing.HandleV4: the same lone-surrogate server error is not modelled.
- Concurrent requests and connections shared across threads are left
  out.

=== FILE: database.dfy ===
/** `SQLiteManager`, the wrapper class around one SQLite connection
    (Database.py). The SQL text it builds and the way it shapes fetched
    rows are pure functions; the object's connection state is a class.

    The SQLite engine itself is not modelled. Each operation receives
    what the engine does as parameters: whether `sqlite3.connect` can
    open the file, whether a statement runs and commits without raising,
    and what a query fetches. The manager keeps a log of the statements
    the engine carried out. */
module Database {
  import opened Wrappers
  import opened PyStr
  import PyDict

  /** A value SQLite stores or returns. REAL (a float) is not modelled. */
  datatype Value = Null | Integer(i: int) | Text(s: string) | Blob(bytes: seq<bv8>)

  /** A fetched row: a tuple of column values. */
  type Row = seq<Value>

  /** A record the caller passes in or a row the wrapper hands back:
      a dict from column name to value. */
  type Record = PyDict.Dict<Value>

  /** What the engine carried out on the manager's cursor and connection:
      `cursor.execute`, `cursor.executemany`, `conn.commit()`. */
  datatype Statement =
    | Exec(sql: string, params: seq<Value>)
    | ExecMany(sql: string, batch: seq<seq<Value>>)
    | Commit

  /** How the engine answers a query: it raises, or it executes the
      statement, leaving `cursor.description` (absent for statements
      that return no rows) and the rows `fetchall()` returns. */
  datatype Answer =
    | Raised
    | Completed(description: Option<seq<string>>, rows: seq<Row>)

  /** How the engine carries out a statement followed by `conn.commit()`:
      `cursor.execute` raises; it runs but the commit raises (the
      statement then stays in the open transaction); or both succeed. */
  datatype Outcome = ExecuteRaises | CommitRaises | Committed

  /** The statements the engine carried out for `stmt` and its commit. */
  function Carried(stmt: Statement, outcome: Outcome): seq<Statement> {
    match outcome
    case ExecuteRaises => []
    case CommitRaises => [stmt]
    case Committed => [stmt, Commit]
  }

  /** How the engine carries out `cursor.executemany` followed by
      `conn.commit()`. `executemany` runs the parameter tuples one at a
      time, so it can raise after the first `ran` tuples were inserted
      into the open transaction (a later record with another number of
      keys, a constraint violation); `ran` past the batch's end means
      every tuple ran. Otherwise the batch runs and the commit raises or
      succeeds. */
  datatype BatchOutcome = TupleRaises(ran: nat) | BatchCommitRaises | BatchCommitted

  /** The statements the engine carried out for a batch and its commit:
      the tuples that ran before one raised, else the whole batch, and
      then the commit when it succeeded. */
  function CarriedBatch(sql: string, batch: seq<seq<Value>>, outcome: BatchOutcome): seq<Statement> {
    match outcome
    case TupleRaises(ran) =>
      var done := batch[..if ran < |batch| then ran else |batch|];
      if done == [] then [] else [ExecMany(sql, done)]
    case BatchCommitRaises => [ExecMany(sql, batch)]
    case BatchCommitted => [ExecMany(sql, batch), Commit]
  }

  /** The file `SQLiteManager()` opens when given no path. */
  const DefaultPath := "my_database.db"

  // ---------------------------------------------------------------
  // SQL text
  // ---------------------------------------------------------------

  /** The `"<name> <type>"` definitions of a column mapping, in its order. */
  function ColumnDefs(columns: PyDict.Dict<string>): seq<string> {
    seq(|columns|, i requires 0 <= i < |columns| => columns[i].0 + " " + columns[i].1)
  }

  /** `", ".join(f"{col_name} {col_type}" for ... in columns.items())` */
  function ColumnsClause(columns: PyDict.Dict<string>): string {
    Join(", ", ColumnDefs(columns))
  }

  function CreateTableSql(table: string, columns: PyDict.Dict<string>): string {
    "CREATE TABLE IF NOT EXISTS " + table + " (" + ColumnsClause(columns) + ")"
  }

  /** `", ".join(["?" for _ in data])`: one placeholder per key. */
  function Placeholders(n: nat): string {
    Join(", ", seq(n, _ => "?"))
  }

  function InsertSql(table: string, columns: seq<string>): string {
    "INSERT INTO " + table + " (" + Join(", ", columns) + ") VALUES (" + Placeholders(|columns|) + ")"
  }

  /** `[tuple(item.values()) for item in data_list]` */
  function BindBatch(records: seq<Record>): seq<seq<Value>> {
    seq(|records|, i requires 0 <= i < |records| => PyDict.Values(records[i]))
  }

  function TableInfoSql(table: string): string {
    "PRAGMA table_info(" + table + ")"
  }

  const ListTablesSql := "SELECT name FROM sqlite_master WHERE type='table'"

  /** The table SQLite keeps AUTOINCREMENT counters in. */
  const SequenceTable := "sqlite_sequence"

  /** Read back between its commas, the column clause of CREATE TABLE
      lists the mapping's `"<name> <type>"` definitions in order, each
      after the first preceded by the space that follows its comma;
      provided no name or type contains a comma. */
  lemma ColumnsClauseFields(columns: PyDict.Dict<string>)
    requires |columns| > 0
    requires forall i | 0 <= i < |columns| :: ',' !in columns[i].0 && ',' !in columns[i].1
    ensures var fields := Split(ColumnsClause(columns), ',');
      && |fields| == |columns|
      && fields[0] == columns[0].0 + " " + columns[0].1
      && forall i | 0 < i < |columns| :: fields[i] == " " + columns[i].0 + " " + columns[i].1
  {
    var defs := ColumnDefs(columns);
    forall i | 0 <= i < |defs| ensures ',' !in defs[i] {
      assert defs[i] == columns[i].0 + " " + columns[i].1;
    }
    SplitCommaSpace(defs);
  }

  /** The statement `insert_data` and `insert_many` build carries exactly
      one `?` per column, provided the table and column names carry none. */
  lemma InsertPlaceholderCount(table: string, columns: seq<string>)
    requires '?' !in table
    requires forall c <- columns :: '?' !in c
    ensures Count(InsertSql(table, columns), '?') == |columns|
  {
    ColumnListCount(columns);
    PlaceholdersCount(|columns|);
    CountAmongWords("INSERT INTO ", table, " (", Join(", ", columns), ") VALUES (", Placeholders(|columns|), ")", '?');
  }

  /** When only the 4th and 6th of seven pieces can hold `c`, the
      occurrences of `c` in their concatenation are theirs. */
  lemma CountAmongWords(p1: string, p2: string, p3: string, p4: string, p5: string, p6: string, p7: string, c: char)
    requires c !in p1 && c !in p2 && c !in p3 && c !in p5 && c !in p7
    ensures Count(p1 + p2 + p3 + p4 + p5 + p6 + p7, c) == Count(p4, c) + Count(p6, c)
  {
    CountAbsent(p1, c);
    CountAbsent(p2, c);
    CountAbsent(p3, c);
    CountAbsent(p5, c);
    CountAbsent(p7, c);
    CountAppend(p1, p2, c);
    CountAppend(p1 + p2, p3, c);
    CountAppend(p1 + p2 + p3, p4, c);
    CountAppend(p1 + p2 + p3 + p4, p5, c);
    CountAppend(p1 + p2 + p3 + p4 + p5, p6, c);
    CountAppend(p1 + p2 + p3 + p4 + p5 + p6, p7, c);
  }

  /** `n` placeholders hold `n` question marks. */
  lemma PlaceholdersCount(n: nat)
    ensures Count(Placeholders(n), '?') == n
  {
    if n > 0 {
      CountJoin(", ", seq(n, _ => "?"), '?');
      CountAllMarks(n);
      CountAbsent(", ", '?');
    }
  }

  /** Column names without a `?` join into a list without one. */
  lemma ColumnListCount(columns: seq<string>)
    requires forall c <- columns :: '?' !in c
    ensures Count(Join(", ", columns), '?') == 0
  {
    if columns != [] {
      CountJoin(", ", columns, '?');
      CountAllAbsent(columns, '?');
      CountAbsent(", ", '?');
    }
  }

  lemma {:induction false} CountAllMarks(n: nat)
    ensures CountAll(seq(n, _ => "?"), '?') == n
  {
    if n > 0 {
      CountAllMarks(n - 1);
      assert seq(n, _ => "?")[1..] == seq(n - 1, _ => "?");
    }
  }

  // ---------------------------------------------------------------
  // Result shaping
  // ---------------------------------------------------------------

  /** `dict(zip(column_names, row))` */
  function RowDict(columnNames: seq<string>, row: Row): (d: Record)
    ensures PyDict.DistinctKeys(d)
  {
    PyDict.FromPairs(PyDict.Zip(columnNames, row))
  }

  /** What the loop in `query` builds: one dict per fetched row. */
  function Shape(columnNames: seq<string>, rows: seq<Row>): seq<Record> {
    seq(|rows|, i requires 0 <= i < |rows| => RowDict(columnNames, rows[i]))
  }

  /** With distinct column names and rows as wide as the description,
      `query` returns one dict per row, in fetch order, whose keys are the
      column names and whose values are that row's values. */
  lemma ShapeEntries(columnNames: seq<string>, rows: seq<Row>)
    requires PyDict.Distinct(columnNames)
    requires forall i | 0 <= i < |rows| :: |rows[i]| == |columnNames|
    ensures |Shape(columnNames, rows)| == |rows|
    ensures forall i | 0 <= i < |rows| ::
      && PyDict.Keys(Shape(columnNames, rows)[i]) == columnNames
      && PyDict.Values(Shape(columnNames, rows)[i]) == rows[i]
  {
    forall i | 0 <= i < |rows|
      ensures PyDict.Keys(Shape(columnNames, rows)[i]) == columnNames
      ensures PyDict.Values(Shape(columnNames, rows)[i]) == rows[i]
    {
      RowDictEntries(columnNames, rows[i]);
    }
  }

  /** With distinct column names and a value for each, a shaped row has
      exactly those names as keys, in cursor order, bound to the row's
      values in the same order. */
  lemma RowDictEntries(columnNames: seq<string>, row: Row)
    requires PyDict.Distinct(columnNames) && |row| == |columnNames|
    ensures PyDict.Keys(RowDict(columnNames, row)) == columnNames
    ensures PyDict.Values(RowDict(columnNames, row)) == row
  {
    var z := PyDict.Zip(columnNames, row);
    assert PyDict.Keys(z) == columnNames;
    PyDict.FromPairsOfDistinct(z);
  }

  /** When the cursor reports the same column name twice, the shaped row
      keeps the value of the last such column. */
  lemma RowDictLastColumnWins(columnNames: seq<string>, row: Row, j: nat)
    requires j < |columnNames| && j < |row|
    requires forall k | j < k < |columnNames| && k < |row| :: columnNames[k] != columnNames[j]
    ensures PyDict.Get(RowDict(columnNames, row), columnNames[j]) == Some(row[j])
  {
    PyDict.FromPairsLastWins(PyDict.Zip(columnNames, row), j);
  }

  /** `[table['name'] for table in result if table['name'] != 'sqlite_sequence']`
      once every row has a `name` key: drops each `sqlite_sequence`. */
  function WithoutSequenceTable(names: seq<Value>): (kept: seq<Value>)
    ensures Text(SequenceTable) !in kept && |kept| <= |names|
    ensures forall v <- kept :: v in names
  {
    if names == [] then []
    else if names[0] == Text(SequenceTable) then WithoutSequenceTable(names[1..])
    else [names[0]] + WithoutSequenceTable(names[1..])
  }

  /** The comprehension of `get_all_tables` over the rows `query` returned;
      a row without a `name` key raises `KeyError: 'name'`. */
  function TableNames(rows: seq<Record>): (r: Result<seq<Value>, string>)
    ensures r.Failure? <==> exists i | 0 <= i < |rows| :: "name" !in PyDict.Keys(rows[i])
    ensures r.Success? ==> |r.value| <= |rows|
  {
    if forall i | 0 <= i < |rows| :: "name" in PyDict.Keys(rows[i]) then
      Success(WithoutSequenceTable(seq(|rows|, i requires 0 <= i < |rows| => PyDict.Get(rows[i], "name").value)))
    else
      Failure("name")
  }

  /** Filtering works entry by entry, so it keeps the order of the
      names: the filter of a concatenation is the concatenation of the
      filters. */
  lemma {:induction false} WithoutSequenceTableAppend(a: seq<Value>, b: seq<Value>)
    ensures WithoutSequenceTable(a + b) == WithoutSequenceTable(a) + WithoutSequenceTable(b)
  {
    if a == [] {
      assert a + b == b;
    } else {
      assert (a + b)[1..] == a[1..] + b;
      WithoutSequenceTableAppend(a[1..], b);
    }
  }

  /** Every `sqlite_sequence` entry goes and every other name stays, as
      often as it occurs. */
  lemma {:induction false} WithoutSequenceTableCounts(names: seq<Value>, v: Value)
    ensures multiset(WithoutSequenceTable(names))[v] ==
      if v == Text(SequenceTable) then 0 else multiset(names)[v]
  {
    if names != [] {
      WithoutSequenceTableCounts(names[1..], v);
      assert names == [names[0]] + names[1..];
    }
  }

  // ---------------------------------------------------------------
  // The manager object
  // ---------------------------------------------------------------

  class SQLiteManager {
    const dbPath: string
    /** `self.conn`: which connection the attribute refers to, if any
        (connections are numbered in the order they were opened). */
    var conn: Option<nat>
    /** `self.cursor`: the connection the cursor was made from, if any. */
    var cursor: Option<nat>
    /** How many connections this manager has opened. */
    var connections: nat
    /** The connections on which `close()` has been called. */
    var closed: set<nat>
    /** The statements the engine carried out through this manager. */
    var log: seq<Statement>

    ghost predicate Valid()
      reads this
    {
      && (conn.Some? <==> cursor.Some?)
      && (conn.Some? ==> cursor.value == conn.value && conn.value < connections)
      && (forall c <- closed :: c < connections)
    }

    /** The cursor can run statements: a connection is set and still open. */
    predicate Live()
      reads this
    {
      conn.Some? && conn.value !in closed
    }

    /** The state after `if not self.conn: self.connect()`. */
    twostate predicate ConnectedLazily(canOpen: bool)
      reads this
    {
      if old(conn).None? && canOpen then
        conn == Some(old(connections)) && cursor == Some(old(connections)) && connections == old(connections) + 1
      else
        conn == old(conn) && cursor == old(cursor) && connections == old(connections)
    }

    constructor (dbPath: string := DefaultPath)
      ensures Valid() && this.dbPath == dbPath
      ensures conn == None && cursor == None
      ensures connections == 0 && closed == {} && log == []
    {
      this.dbPath := dbPath;
      conn, cursor := None, None;
      connections, closed, log := 0, {}, [];
    }

    /** `connect`: opens a fresh connection and its cursor and returns
        True, or, when the file cannot be opened, changes nothing and
        returns False. */
    method Connect(canOpen: bool) returns (ok: bool)
      requires Valid()
      modifies this
      ensures Valid() && ok == canOpen
      ensures ok ==> conn == Some(old(connections)) && cursor == Some(old(connections)) && connections == old(connections) + 1
      ensures ok ==> Live()
      ensures !ok ==> conn == old(conn) && cursor == old(cursor) && connections == old(connections)
      ensures closed == old(closed) && log == old(log)
    {
      if canOpen {
        conn, cursor := Some(connections), Some(connections);
        connections := connections + 1;
        ok := true;
      } else {
        ok := false;
      }
    }

    /** The guard every operation but `query_with_pandas` starts with. */
    method ConnectIfUnset(canOpen: bool)
      requires Valid()
      modifies this
      ensures Valid() && ConnectedLazily(canOpen)
      ensures closed == old(closed) && log == old(log)
    {
      if conn.None? {
        var _ := Connect(canOpen);
      }
    }

    /** `create_table`: runs and commits the CREATE TABLE statement built
        from the column mapping; a failure is reported and swallowed. */
    method CreateTable(table: string, columns: PyDict.Dict<string>, canOpen: bool, outcome: Outcome)
      requires Valid()
      modifies this
      ensures Valid() && ConnectedLazily(canOpen) && closed == old(closed)
      ensures log == old(log) + if Live() then Carried(Exec(CreateTableSql(table, columns), []), outcome) else []
    {
      ConnectIfUnset(canOpen);
      var sql := CreateTableSql(table, columns);
      if Live() {
        log := log + Carried(Exec(sql, []), outcome);
      }
    }

    /** `insert_data`: one INSERT whose columns are the record's keys and
        whose bound parameters are its values, in the same order. */
    method InsertData(table: string, data: Record, canOpen: bool, outcome: Outcome)
      requires Valid()
      modifies this
      ensures Valid() && ConnectedLazily(canOpen) && closed == old(closed)
      ensures log == old(log) +
        if Live() then Carried(Exec(InsertSql(table, PyDict.Keys(data)), PyDict.Values(data)), outcome) else []
    {
      ConnectIfUnset(canOpen);
      var sql := InsertSql(table, PyDict.Keys(data));
      if Live() {
        log := log + Carried(Exec(sql, PyDict.Values(data)), outcome);
      }
    }

    /** `insert_many`: nothing at all for an empty list; otherwise one
        batched INSERT whose columns come from the first record only, with
        one parameter tuple per record in list order. A tuple that raises
        leaves the tuples before it inserted and skips the commit. */
    method InsertMany(table: string, records: seq<Record>, canOpen: bool, outcome: BatchOutcome)
      requires Valid()
      modifies this
      ensures Valid() && closed == old(closed)
      ensures records == [] ==> conn == old(conn) && cursor == old(cursor) && connections == old(connections)
      ensures records != [] ==> ConnectedLazily(canOpen)
      ensures log == old(log) +
        if records != [] && Live()
        then CarriedBatch(InsertSql(table, PyDict.Keys(records[0])), BindBatch(records), outcome)
        else []
    {
      if records == [] {
        return;
      }
      ConnectIfUnset(canOpen);
      var sql := InsertSql(table, PyDict.Keys(records[0]));
      if Live() {
        var values := BindBatch(records);
        log := log + CarriedBatch(sql, values, outcome);
      }
    }

    /** `query`: one dict per fetched row, in fetch order, keyed by the
        cursor's column names; `[]` when anything raises. */
    method Query(sql: string, params: seq<Value>, canOpen: bool, answer: Answer)
      returns (result: seq<Record>)
      requires Valid()
      modifies this
      ensures Valid() && ConnectedLazily(canOpen) && closed == old(closed)
      ensures log == old(log) + if Live() && answer.Completed? then [Exec(sql, params)] else []
      ensures result ==
        if Live() && answer.Completed? && answer.description.Some?
        then Shape(answer.description.value, answer.rows)
        else []
    {
      ConnectIfUnset(canOpen);
      if !Live() || answer.Raised? {
        return [];
      }
      log := log + [Exec(sql, params)];
      if answer.description.None? {
        return [];
      }
      var columnNames := answer.description.value;
      var rows := answer.rows;
      result := [];
      var i := 0;
      while i < |rows|
        invariant 0 <= i <= |rows|
        invariant |result| == i
        invariant forall k | 0 <= k < i :: result[k] == RowDict(columnNames, rows[k])
      {
        result := result + [RowDict(columnNames, rows[i])];
        i := i + 1;
      }
    }

    /** `execute`: runs and commits a statement; a failure is swallowed. */
    method Execute(sql: string, params: seq<Value>, canOpen: bool, outcome: Outcome)
      requires Valid()
      modifies this
      ensures Valid() && ConnectedLazily(canOpen) && closed == old(closed)
      ensures log == old(log) + if Live() then Carried(Exec(sql, params), outcome) else []
    {
      ConnectIfUnset(canOpen);
      if Live() {
        log := log + Carried(Exec(sql, params), outcome);
      }
    }

    /** `get_table_info`: the PRAGMA table_info rows, through `query`. */
    method GetTableInfo(table: string, canOpen: bool, answer: Answer)
      returns (result: seq<Record>)
      requires Valid()
      modifies this
      ensures Valid() && ConnectedLazily(canOpen) && closed == old(closed)
      ensures log == old(log) + if Live() && answer.Completed? then [Exec(TableInfoSql(table), [])] else []
      ensures result ==
        if Live() && answer.Completed? && answer.description.Some?
        then Shape(answer.description.value, answer.rows)
        else []
    {
      result := Query(TableInfoSql(table), [], canOpen, answer);
    }

    /** `get_all_tables`: the table names `sqlite_master` lists, in that
        order, without `sqlite_sequence`. */
    method GetAllTables(canOpen: bool, answer: Answer)
      returns (names: Result<seq<Value>, string>)
      requires Valid()
      modifies this
      ensures Valid() && ConnectedLazily(canOpen) && closed == old(closed)
      ensures log == old(log) + if Live() && answer.Completed? then [Exec(ListTablesSql, [])] else []
      ensures names == TableNames(
        if Live() && answer.Completed? && answer.description.Some?
        then Shape(answer.description.value, answer.rows)
        else [])
    {
      var result := Query(ListTablesSql, [], canOpen, answer);
      names := TableNames(result);
    }

    /** `close`: closes the connection if one is set; `conn` and `cursor`
        keep referring to it, so later operations do not reconnect. */
    method Close()
      requires Valid()
      modifies this
      ensures Valid() && !Live()
      ensures conn == old(conn) && cursor == old(cursor) && connections == old(connections) && log == old(log)
      ensures closed == if old(conn).Some? then old(closed) + {old(conn).value} else old(closed)
    {
      if conn.Some? {
        closed := closed + {conn.value};
      }
    }

    /** `__enter__`: connects, unconditionally, and returns the manager. */
    method Enter(canOpen: bool) returns (self: SQLiteManager)
      requires Valid()
      modifies this
      ensures self == this && Valid()
      ensures canOpen ==> conn == Some(old(connections)) && cursor == Some(old(connections)) && connections == old(connections) + 1 && Live()
      ensures !canOpen ==> conn == old(conn) && cursor == old(cursor) && connections == old(connections)
      ensures closed == old(closed) && log == old(log)
    {
      var _ := Connect(canOpen);
      self := this;
    }

    /** `__exit__`: closes. */
    method Exit()
      requires Valid()
      modifies this
      ensures Valid() && !Live()
      ensures conn == old(conn) && cursor == old(cursor) && connections == old(connections) && log == old(log)
      ensures closed == if old(conn).Some? then old(closed) + {old(conn).value} else old(closed)
    {
      Close();
    }
  }

  /** Once a manager has been used and closed, an operation neither
      reconnects nor reaches the engine: `close` leaves `conn` set. */
  method UseAfterClose(db: SQLiteManager, sql: string, canOpen: bool, outcome: Outcome)
    requires db.Valid() && db.conn.Some?
    modifies db
    ensures db.Valid() && !db.Live()
    ensures db.conn == old(db.conn) && db.connections == old(db.connections) && db.log == old(db.log)
  {
    db.Close();
    db.Execute(sql, [], canOpen, outcome);
  }
}

=== FILE: pydict.dfy ===
/** Python's `dict` as the repository uses it: an insertion-ordered
    mapping with string keys, written here as a sequence of (key, value)
    entries.
    `d[k] = v` overwrites the value of an existing key where it stands
    and appends a new key at the end; `dict(pairs)` is that assignment
    applied to each pair in turn. */
module PyDict {
  import opened Wrappers

  type Dict<V> = seq<(string, V)>

  /** `list(d.keys())`, in insertion order. */
  function Keys<V>(d: Dict<V>): seq<string> {
    seq(|d|, i requires 0 <= i < |d| => d[i].0)
  }

  /** `list(d.values())`, in insertion order. */
  function Values<V>(d: Dict<V>): seq<V> {
    seq(|d|, i requires 0 <= i < |d| => d[i].1)
  }

  predicate Distinct<T(==)>(s: seq<T>) {
    forall i, j | 0 <= i < j < |s| :: s[i] != s[j]
  }

  /** Every Python dict has pairwise distinct keys. */
  predicate DistinctKeys<V>(d: Dict<V>) {
    Distinct(Keys(d))
  }

  /** `d.get(k)`: the value stored under the first entry with key `k`. */
  function Get<V>(d: Dict<V>, k: string): (r: Option<V>)
    ensures r.None? <==> k !in Keys(d)
  {
    if d == [] then None
    else
      assert Keys(d) == [d[0].0] + Keys(d[1..]);
      if d[0].0 == k then Some(d[0].1) else Get(d[1..], k)
  }

  /** In a dict, the lookup of the key of entry `i` is entry `i`'s value. */
  lemma {:induction false} GetAt<V>(d: Dict<V>, i: nat)
    requires DistinctKeys(d) && i < |d|
    ensures Get(d, d[i].0) == Some(d[i].1)
  {
    if i > 0 {
      assert Keys(d)[0] != Keys(d)[i];
      assert DistinctKeys(d[1..]) by {
        forall a, b | 0 <= a < b < |d[1..]| ensures Keys(d[1..])[a] != Keys(d[1..])[b] {
          assert Keys(d)[a + 1] != Keys(d)[b + 1];
        }
      }
      GetAt(d[1..], i - 1);
    }
  }

  /** `d[k] = v`: overwrite the entry of `k` where it stands, or append
      a new entry when `k` is absent. */
  function Set<V>(d: Dict<V>, k: string, v: V): Dict<V> {
    if d == [] then [(k, v)]
    else if d[0].0 == k then [(k, v)] + d[1..]
    else [d[0]] + Set(d[1..], k, v)
  }

  /** After `d[k] = v`, looking up `k` gives `v` and every other key
      gives what it gave before. */
  lemma {:induction false} SetGet<V>(d: Dict<V>, k: string, v: V, k': string)
    ensures Get(Set(d, k, v), k') == if k' == k then Some(v) else Get(d, k')
  {
    if d != [] && d[0].0 != k {
      SetGet(d[1..], k, v, k');
    }
  }

  /** `d[k] = v` keeps the key order; a new key is placed last. */
  lemma {:induction false} SetKeys<V>(d: Dict<V>, k: string, v: V)
    ensures Keys(Set(d, k, v)) == if k in Keys(d) then Keys(d) else Keys(d) + [k]
  {
    if d != [] {
      assert Keys(d) == [d[0].0] + Keys(d[1..]);
      if d[0].0 != k {
        SetKeys(d[1..], k, v);
        assert Keys(Set(d, k, v)) == [d[0].0] + Keys(Set(d[1..], k, v));
      } else {
        assert Keys(Set(d, k, v)) == [k] + Keys(d[1..]);
      }
    }
  }

  /** Assignment keeps the keys of a dict distinct. */
  lemma SetDistinct<V>(d: Dict<V>, k: string, v: V)
    requires DistinctKeys(d)
    ensures DistinctKeys(Set(d, k, v))
  {
    SetKeys(d, k, v);
  }

  /** `dict(pairs)`, equally a run of `d[k] = v` over `pairs` from an
      empty dict. */
  function FromPairs<V>(pairs: seq<(string, V)>): (d: Dict<V>)
    ensures DistinctKeys(d)
  {
    if pairs == [] then []
    else
      var n := |pairs| - 1;
      var prev := FromPairs(pairs[..n]);
      SetDistinct(prev, pairs[n].0, pairs[n].1);
      Set(prev, pairs[n].0, pairs[n].1)
  }

  /** A key is in `dict(pairs)` exactly when some pair carries it. */
  lemma {:induction false} FromPairsKeys<V>(pairs: seq<(string, V)>, k: string)
    ensures k in Keys(FromPairs(pairs)) <==> k in Keys(pairs)
  {
    if pairs != [] {
      var n := |pairs| - 1;
      FromPairsKeys(pairs[..n], k);
      SetKeys(FromPairs(pairs[..n]), pairs[n].0, pairs[n].1);
      assert Keys(pairs) == Keys(pairs[..n]) + [pairs[n].0];
    }
  }

  /** The last pair with a given key decides its value: a later
      duplicate overwrites an earlier one. */
  lemma {:induction false} FromPairsLastWins<V>(pairs: seq<(string, V)>, i: nat)
    requires i < |pairs|
    requires forall j | i < j < |pairs| :: pairs[j].0 != pairs[i].0
    ensures Get(FromPairs(pairs), pairs[i].0) == Some(pairs[i].1)
  {
    var n := |pairs| - 1;
    SetGet(FromPairs(pairs[..n]), pairs[n].0, pairs[n].1, pairs[i].0);
    if i < n {
      FromPairsLastWins(pairs[..n], i);
    }
  }

  /** Pairs whose keys are already distinct make a dict with exactly
      those entries, in that order. */
  lemma {:induction false} FromPairsOfDistinct<V>(pairs: seq<(string, V)>)
    requires DistinctKeys(pairs)
    ensures FromPairs(pairs) == pairs
  {
    if pairs != [] {
      var n := |pairs| - 1;
      assert Keys(pairs[..n]) == Keys(pairs)[..n];
      FromPairsOfDistinct(pairs[..n]);
      var k := pairs[n].0;
      assert k !in Keys(pairs[..n]) by {
        forall j | 0 <= j < n ensures Keys(pairs[..n])[j] != k {
          assert Keys(pairs)[j] != Keys(pairs)[n];
        }
      }
      SetAppends(pairs[..n], k, pairs[n].1);
      assert pairs[..n] + [pairs[n]] == pairs;
    }
  }

  /** Assigning a key that is not present appends one entry. */
  lemma {:induction false} SetAppends<V>(d: Dict<V>, k: string, v: V)
    requires k !in Keys(d)
    ensures Set(d, k, v) == d + [(k, v)]
  {
    if d != [] {
      assert Keys(d) == [d[0].0] + Keys(d[1..]);
      SetAppends(d[1..], k, v);
      assert [d[0]] + (d[1..] + [(k, v)]) == d + [(k, v)];
    }
  }

  /** `zip(xs, ys)`: pairs up the elements, stopping at the shorter. */
  function Zip<V>(xs: seq<string>, ys: seq<V>): (z: seq<(string, V)>)
    ensures |z| == if |xs| <= |ys| then |xs| else |ys|
    ensures forall i | 0 <= i < |z| :: z[i] == (xs[i], ys[i])
  {
    if xs == [] || ys == [] then [] else [(xs[0], ys[0])] + Zip(xs[1..], ys[1..])
  }
}

=== FILE: pyfile.dfy ===
/** Iterating over a file opened for reading in text mode
    (`open(path, 'r', encoding='utf-8')`, then `for line in f`). The file
    is given by its decoded text. Universal-newline mode turns `\r\n` and
    a lone `\r` into `\n`. Each line then runs up to and including its
    `\n`; the last line has no `\n` when the text does not end with one. */
module PyFile {

  /** Universal-newline translation of the text read. */
  function Translate(s: string): string {
    if s == [] then []
    else if s[0] == '\r' && |s| > 1 && s[1] == '\n' then "\n" + Translate(s[2..])
    else if s[0] == '\r' then "\n" + Translate(s[1..])
    else [s[0]] + Translate(s[1..])
  }

  /** The first line break at or after `i`, or `|t|` when there is none. */
  function NextBreak(t: string, i: nat): (j: nat)
    requires i <= |t|
    ensures i <= j <= |t|
    ensures forall k | i <= k < j :: t[k] != '\n'
    ensures j == |t| || t[j] == '\n'
    decreases |t| - i
  {
    if i < |t| && t[i] != '\n' then NextBreak(t, i + 1) else i
  }

  /** Splits translated text after each `\n`. */
  function Lines(t: string): seq<string>
    decreases |t|
  {
    if t == [] then []
    else
      var j := NextBreak(t, 0);
      if j == |t| then [t] else [t[..j + 1]] + Lines(t[j + 1..])
  }

  /** The lines `for line in f` yields for a file holding `content`. */
  function ReadLines(content: string): (lines: seq<string>)
    ensures forall i | 0 <= i < |lines| :: '\r' !in lines[i] && IsBroken(lines[i], i == |lines| - 1)
  {
    var t := Translate(content);
    TranslateNoReturn(content);
    LinesBreaks(t);
    LinesNoReturn(t);
    Lines(t)
  }

  /** A complete line: text without line breaks, then one `\n`. */
  predicate IsLine(line: string) {
    && |line| > 0 && line[|line| - 1] == '\n'
    && forall k | 0 <= k < |line| - 1 :: line[k] != '\n' && line[k] != '\r'
  }

  /** The text of a file written line after line. */
  function Concat(lines: seq<string>): string {
    if lines == [] then "" else lines[0] + Concat(lines[1..])
  }

  /** Translation leaves no carriage return behind. */
  lemma {:induction false} TranslateNoReturn(s: string)
    ensures '\r' !in Translate(s)
  {
    if s != [] {
      if s[0] == '\r' && |s| > 1 && s[1] == '\n' {
        TranslateNoReturn(s[2..]);
      } else {
        TranslateNoReturn(s[1..]);
      }
    }
  }

  /** Text without carriage returns is read as it is. */
  lemma {:induction false} TranslateUnchanged(s: string)
    requires '\r' !in s
    ensures Translate(s) == s
  {
    if s != [] {
      assert s[0] in s;
      assert forall k | 0 <= k < |s[1..]| :: s[1..][k] == s[k + 1];
      TranslateUnchanged(s[1..]);
      assert [s[0]] + s[1..] == s;
    }
  }

  /** The lines read back tile the translated text. */
  lemma {:induction false} LinesTile(t: string)
    ensures Concat(Lines(t)) == t
    decreases |t|
  {
    if t != [] {
      var j := NextBreak(t, 0);
      if j < |t| {
        var rest := t[j + 1..];
        LinesTile(rest);
        var ls := Lines(t);
        assert ls == [t[..j + 1]] + Lines(rest);
        assert ls[1..] == Lines(rest);
        assert t[..j + 1] + rest == t;
      } else {
        assert Lines(t) == [t];
        assert Lines(t)[1..] == [];
      }
    }
  }

  /** No line is empty; a line holds a line break only as its last
      character, and only the last line may lack one. */
  lemma {:induction false} LinesBreaks(t: string)
    ensures forall i | 0 <= i < |Lines(t)| :: IsBroken(Lines(t)[i], i == |Lines(t)| - 1)
    decreases |t|
  {
    if t != [] {
      var j := NextBreak(t, 0);
      if j < |t| {
        var rest := t[j + 1..];
        LinesBreaks(rest);
        var ls := Lines(t);
        assert ls == [t[..j + 1]] + Lines(rest);
        assert IsBroken(ls[0], false);
        forall i | 0 < i < |ls| ensures IsBroken(ls[i], i == |ls| - 1) {
          assert ls[i] == Lines(rest)[i - 1];
        }
      }
    }
  }

  /** A non-empty line without inner line breaks that ends in `\n`
      unless it may be the last one. */
  predicate IsBroken(line: string, last: bool) {
    && |line| > 0
    && (forall k | 0 <= k < |line| - 1 :: line[k] != '\n')
    && (!last ==> line[|line| - 1] == '\n')
  }

  /** The lines read from a file tile its translated text: nothing is
      lost or added but the newline translation. */
  lemma ReadLinesShape(content: string)
    ensures Concat(ReadLines(content)) == Translate(content)
  {
    LinesTile(Translate(content));
  }

  /** Splitting text without carriage returns gives lines without them. */
  lemma {:induction false} LinesNoReturn(t: string)
    requires '\r' !in t
    ensures forall i | 0 <= i < |Lines(t)| :: '\r' !in Lines(t)[i]
    decreases |t|
  {
    if t != [] {
      var j := NextBreak(t, 0);
      if j < |t| {
        var rest := t[j + 1..];
        assert forall k | 0 <= k < |rest| :: rest[k] == t[j + 1 + k];
        assert forall k | 0 <= k < j + 1 :: t[..j + 1][k] == t[k];
        LinesNoReturn(rest);
        assert Lines(t) == [t[..j + 1]] + Lines(rest);
      }
    }
  }

  /** Writing complete lines one after the other and iterating over the
      file gives those lines back. */
  lemma {:induction false} ReadLinesConcat(lines: seq<string>)
    requires forall i | 0 <= i < |lines| :: IsLine(lines[i])
    ensures ReadLines(Concat(lines)) == lines
  {
    ConcatNoReturn(lines);
    TranslateUnchanged(Concat(lines));
    LinesConcat(lines);
  }

  lemma {:induction false} ConcatNoReturn(lines: seq<string>)
    requires forall i | 0 <= i < |lines| :: IsLine(lines[i])
    ensures '\r' !in Concat(lines)
  {
    if lines != [] {
      ConcatNoReturn(lines[1..]);
      var l := lines[0];
      assert IsLine(l);
      assert '\r' !in l by {
        forall k | 0 <= k < |l| ensures l[k] != '\r' {
          if k < |l| - 1 { } else { assert l[k] == '\n'; }
        }
      }
    }
  }

  lemma {:induction false} LinesConcat(lines: seq<string>)
    requires forall i | 0 <= i < |lines| :: IsLine(lines[i])
    ensures Lines(Concat(lines)) == lines
  {
    if lines != [] {
      var l, rest := lines[0], Concat(lines[1..]);
      var t := l + rest;
      assert IsLine(l);
      assert forall k | 0 <= k < |l| :: t[k] == l[k];
      NextBreakAt(t, 0, |l| - 1);
      assert t[..|l|] == l && t[|l|..] == rest;
      assert Lines(t) == [l] + Lines(rest);
      LinesConcat(lines[1..]);
    }
  }

  /** The break is found where it is when none comes before it. */
  lemma {:induction false} NextBreakAt(t: string, i: nat, j: nat)
    requires i <= j < |t| && t[j] == '\n'
    requires forall k | i <= k < j :: t[k] != '\n'
    ensures NextBreak(t, i) == j
    decreases j - i
  {
    if i < j {
      NextBreakAt(t, i + 1, j);
    }
  }
}

=== FILE: pystr.dfy ===
/** The handful of Python string operations the repository relies on:
    `str.strip()`, `str.split(c)` with a one-character separator,
    `sep.join(parts)`, and counting a character (how many `?`
    placeholders a statement has, how many fields a line splits into). */
module PyStr {

  /** Python's `str.isspace()` for a single character: the characters
      `str.strip()` removes when called without arguments. */
  predicate IsSpace(c: char) {
    || ('\t' <= c <= '\r')            // tab, line feed, vertical tab, form feed, carriage return
    || ('\U{1c}' <= c <= '\U{1f}')    // file, group, record and unit separators
    || c == ' '
    || c == '\U{85}' || c == '\U{a0}' || c == '\U{1680}'
    || ('\U{2000}' <= c <= '\U{200a}')
    || c == '\U{2028}' || c == '\U{2029}' || c == '\U{202f}' || c == '\U{205f}'
    || c == '\U{3000}'
  }

  /** The number of occurrences of `c` in `s`. */
  function Count(s: string, c: char): nat {
    if s == [] then 0 else (if s[0] == c then 1 else 0) + Count(s[1..], c)
  }

  lemma {:induction false} CountAppend(a: string, b: string, c: char)
    ensures Count(a + b, c) == Count(a, c) + Count(b, c)
  {
    if a == [] {
      assert a + b == b;
    } else {
      assert (a + b)[1..] == a[1..] + b;
      CountAppend(a[1..], b, c);
    }
  }

  lemma {:induction false} CountAbsent(s: string, c: char)
    ensures Count(s, c) == 0 <==> c !in s
  {
    if s != [] {
      CountAbsent(s[1..], c);
      assert s == [s[0]] + s[1..];
    }
  }

  /** Where the text of `s` starts, looking from `i` on: the first
      position at or after `i` that is not whitespace, else `|s|`. */
  function TextStart(s: string, i: nat): (r: nat)
    requires i <= |s|
    ensures i <= r <= |s|
    ensures forall k | i <= k < r :: IsSpace(s[k])
    ensures r == |s| || !IsSpace(s[r])
    decreases |s| - i
  {
    if i < |s| && IsSpace(s[i]) then TextStart(s, i + 1) else i
  }

  /** Where the text of `s[lo..j]` ends: the position after its last
      character that is not whitespace, else `lo`. */
  function TextEnd(s: string, lo: nat, j: nat): (r: nat)
    requires lo <= j <= |s|
    ensures lo <= r <= j
    ensures forall k | r <= k < j :: IsSpace(s[k])
    ensures r == lo || !IsSpace(s[r - 1])
  {
    if j > lo && IsSpace(s[j - 1]) then TextEnd(s, lo, j - 1) else j
  }

  /** `s.strip()`: the slice of `s` left once the whitespace at both
      ends is removed; all it removes is whitespace, and what is left
      neither starts nor ends with whitespace. */
  function Strip(s: string): (r: string)
    ensures var i := TextStart(s, 0);
      && i + |r| <= |s| && r == s[i..i + |r|]
      && (forall k | 0 <= k < i :: IsSpace(s[k]))
      && (forall k | i + |r| <= k < |s| :: IsSpace(s[k]))
    ensures r == [] || (!IsSpace(r[0]) && !IsSpace(r[|r| - 1]))
  {
    var i := TextStart(s, 0);
    var j := TextEnd(s, i, |s|);
    s[i..j]
  }

  /** A string that neither starts nor ends with whitespace is its own strip. */
  lemma StripUnchanged(s: string)
    requires s == [] || (!IsSpace(s[0]) && !IsSpace(s[|s| - 1]))
    ensures Strip(s) == s
  {
  }

  lemma StripIdempotent(s: string)
    ensures Strip(Strip(s)) == Strip(s)
  {
    StripUnchanged(Strip(s));
  }

  /** A string of whitespace only strips to the empty string. */
  lemma StripBlank(s: string)
    requires forall k | 0 <= k < |s| :: IsSpace(s[k])
    ensures Strip(s) == ""
  {
  }

  /** A line read from a file keeps its newline; `strip()` removes it
      again and leaves text without whitespace at its ends unchanged. */
  lemma StripNewline(text: string)
    requires text != [] && !IsSpace(text[0]) && !IsSpace(text[|text| - 1])
    ensures Strip(text + "\n") == text
  {
    var line := text + "\n";
    assert TextStart(line, 0) == 0;
    assert TextEnd(line, 0, |line|) == TextEnd(line, 0, |text|) == |text|;
    assert line[0..|text|] == text;
  }

  /** `strip()` removes whitespace after the text, whatever it is: a
      trailing space goes together with the newline. */
  lemma StripPadding(text: string, pad: string)
    requires text != [] && !IsSpace(text[0]) && !IsSpace(text[|text| - 1])
    requires forall k | 0 <= k < |pad| :: IsSpace(pad[k])
    ensures Strip(text + pad) == text
  {
    var line := text + pad;
    assert TextStart(line, 0) == 0;
    TextEndAt(line, 0, |text|, |line|);
    assert line[0..|text|] == text;
  }

  /** The end of the text is found where it is when only whitespace
      follows it. */
  lemma {:induction false} TextEndAt(s: string, lo: nat, r: nat, j: nat)
    requires lo < r <= j <= |s| && !IsSpace(s[r - 1])
    requires forall k | r <= k < j :: IsSpace(s[k])
    ensures TextEnd(s, lo, j) == r
    decreases j - r
  {
    if j > r {
      TextEndAt(s, lo, r, j - 1);
    }
  }

  /** `s.split(sep)` for a one-character separator: the pieces between
      separators, including empty ones; the empty string splits into
      one empty field. */
  function Split(s: string, sep: char): (fields: seq<string>)
    ensures |fields| == Count(s, sep) + 1
    ensures forall f <- fields :: sep !in f
  {
    if s == [] then [""]
    else
      var rest := Split(s[1..], sep);
      if s[0] == sep then [""] + rest else [[s[0]] + rest[0]] + rest[1..]
  }

  /** `sep.join(parts)`. */
  function Join(sep: string, parts: seq<string>): string {
    if |parts| == 0 then ""
    else if |parts| == 1 then parts[0]
    else parts[0] + sep + Join(sep, parts[1..])
  }

  /** Joining the fields of a split with the same separator gives back
      the original string. */
  lemma {:induction false} JoinSplit(s: string, sep: char)
    ensures Join([sep], Split(s, sep)) == s
  {
    if s != [] {
      var rest := Split(s[1..], sep);
      JoinSplit(s[1..], sep);
      if s[0] == sep {
        assert Split(s, sep) == [""] + rest;
        assert ([""] + rest)[1..] == rest;
      } else {
        var fs := Split(s, sep);
        assert fs == [[s[0]] + rest[0]] + rest[1..];
        if |rest| == 1 {
          assert Join([sep], rest) == rest[0];
        } else {
          assert Join([sep], rest) == rest[0] + [sep] + Join([sep], rest[1..]);
          assert fs[1..] == rest[1..];
        }
        assert s == [s[0]] + s[1..];
      }
    }
  }

  /** A string without the separator is a single field. */
  lemma {:induction false} SplitAbsent(s: string, sep: char)
    requires sep !in s
    ensures Split(s, sep) == [s]
  {
    if s != [] {
      SplitAbsent(s[1..], sep);
      assert s == [s[0]] + s[1..];
    }
  }

  /** Splitting `a + [sep] + b`, where `a` has no separator, yields `a`
      followed by the fields of `b`. */
  lemma {:induction false} SplitAfterFirst(a: string, b: string, sep: char)
    requires sep !in a
    ensures Split(a + [sep] + b, sep) == [a] + Split(b, sep)
  {
    if a == [] {
      assert a + [sep] + b == [sep] + b;
      assert ([sep] + b)[1..] == b;
    } else {
      var s := a + [sep] + b;
      assert s[0] == a[0] && s[1..] == a[1..] + [sep] + b;
      SplitAfterFirst(a[1..], b, sep);
      assert [a[0]] + a[1..] == a;
    }
  }

  /** Splitting the join of separator-free parts gives the parts back. */
  lemma {:induction false} SplitJoin(parts: seq<string>, sep: char)
    requires |parts| > 0
    requires forall p <- parts :: sep !in p
    ensures Split(Join([sep], parts), sep) == parts
  {
    if |parts| == 1 {
      SplitAbsent(parts[0], sep);
    } else {
      SplitJoin(parts[1..], sep);
      SplitAfterFirst(parts[0], Join([sep], parts[1..]), sep);
      assert [parts[0]] + parts[1..] == parts;
    }
  }

  /** The total number of occurrences of `c` across `parts`. */
  function CountAll(parts: seq<string>, c: char): nat {
    if parts == [] then 0 else Count(parts[0], c) + CountAll(parts[1..], c)
  }

  /** A joined string holds the parts' occurrences of `c` plus those of
      the `|parts| - 1` separators between them. */
  lemma {:induction false} CountJoin(sep: string, parts: seq<string>, c: char)
    requires |parts| > 0
    ensures Count(Join(sep, parts), c) == CountAll(parts, c) + (|parts| - 1) * Count(sep, c)
  {
    if |parts| > 1 {
      CountJoin(sep, parts[1..], c);
      CountAppend(parts[0] + sep, Join(sep, parts[1..]), c);
      CountAppend(parts[0], sep, c);
      assert CountAll(parts[1..][1..], c) == CountAll(parts[2..], c);
    } else {
      assert parts[1..] == [];
    }
  }

  /** Parts none of which contains `c` contribute no occurrence of it. */
  lemma {:induction false} CountAllAbsent(parts: seq<string>, c: char)
    requires forall p <- parts :: c !in p
    ensures CountAll(parts, c) == 0
  {
    if parts != [] {
      CountAbsent(parts[0], c);
      CountAllAbsent(parts[1..], c);
    }
  }

  /** Prefixing the first part prefixes the joined string. */
  lemma JoinPrefixFirst(sep: string, a: string, parts: seq<string>)
    requires |parts| > 0
    ensures Join(sep, [a + parts[0]] + parts[1..]) == a + Join(sep, parts)
  {
  }

  /** The parts as they stand between the commas of `", ".join(parts)`:
      every part after the first keeps the space that follows its comma. */
  function SpaceAfterComma(parts: seq<string>): seq<string>
    requires |parts| > 0
  {
    seq(|parts|, i requires 0 <= i < |parts| => if i == 0 then parts[0] else " " + parts[i])
  }

  /** `", ".join(parts)` is `",".join` of the parts with a space put in
      front of every part but the first. */
  lemma {:induction false} JoinCommaSpace(parts: seq<string>)
    requires |parts| > 0
    ensures Join(", ", parts) == Join(",", SpaceAfterComma(parts))
  {
    if |parts| > 1 {
      var rest := parts[1..];
      JoinCommaSpace(rest);
      var spaced := SpaceAfterComma(rest);
      JoinPrefixFirst(",", " ", spaced);
      var tail := [" " + spaced[0]] + spaced[1..];
      assert SpaceAfterComma(parts)[1..] == tail;
      calc {
        Join(", ", parts);
        parts[0] + ", " + Join(", ", rest);
        parts[0] + "," + (" " + Join(",", spaced));
        parts[0] + "," + Join(",", tail);
        Join(",", SpaceAfterComma(parts));
      }
    }
  }

  /** Split on `,`, `", ".join(parts)` gives back the parts, every one
      after the first with the space that followed its comma; provided no
      part holds a comma. */
  lemma SplitCommaSpace(parts: seq<string>)
    requires |parts| > 0
    requires forall i | 0 <= i < |parts| :: ',' !in parts[i]
    ensures Split(Join(", ", parts), ',') == SpaceAfterComma(parts)
  {
    JoinCommaSpace(parts);
    var spaced := SpaceAfterComma(parts);
    forall p <- spaced ensures ',' !in p {
      var i :| 0 <= i < |spaced| && spaced[i] == p;
      assert i > 0 ==> p == " " + parts[i];
    }
    SplitJoin(spaced, ',');
  }
}

=== FILE: signing.dfy ===
/** The `/test` endpoint of FlaskV2.py, FlaskV3.py and FlaskV4.py: a POST
    carrying `order_string` in its JSON body (and, from V3 on, `token` in
    the query string) is answered with the MD5 of the payload followed by
    a fixed salt.

    A request is the pair of optional strings the handler reads; the
    answer is a `Response` plus the effects the handler had on the way:
    reading the token file, querying the `user` table, reading the body.
    MD5 (RFC 1321) stays abstract: the handlers take the function that
    maps a string to the lowercase hex digest of its UTF-8 bytes. */
module Signing {
  import opened Wrappers
  import opened Database
  import PyDict
  import PyFile
  import TokenFile

  const Salt := "guozhch2346"
  /** "认证失败", authentication failed. */
  const AuthFailed := "\U{8ba4}\U{8bc1}\U{5931}\U{8d25}"
  /** "请求体错误", bad request body. */
  const BadBody := "\U{8bf7}\U{6c42}\U{4f53}\U{9519}\U{8bef}"
  const UserTable := "user"
  const UserQuery := "SELECT * FROM " + UserTable + " WHERE UUID=?"

  /** The JSON the handler returns, or the server error Flask answers
      with when an exception escapes the handler. */
  datatype Response<U> =
    | Rejected(error: string)                // {"status": False, "error": error}
    | Signed(data: string, user: Option<U>)  // {"status": True, "data": data, "user": user}
    | ServerError

  datatype Effect =
    | ReadTokenFile
    | QueryUsers(sql: string, params: seq<Value>)
    | ReadBody

  datatype Handled<U> = Handled(response: Response<U>, effects: seq<Effect>)

  /** Python's truthiness of a `str` or `None`: present and non-empty. */
  predicate Present(s: Option<string>) {
    s.Some? && s.value != ""
  }

  /** `hashlib.md5((order_string + 'guozhch2346').encode('utf-8')).hexdigest()` */
  function Sign(md5: string -> string, orderString: string): string {
    md5(orderString + Salt)
  }

  /** FlaskV2 `test()`: no authentication, one payload check. */
  function HandleV2<U>(orderString: Option<string>, md5: string -> string): (h: Handled<U>)
    ensures h.effects == [ReadBody]
  {
    if !Present(orderString) then Handled(Rejected(BadBody), [ReadBody])
    else Handled(Signed(Sign(md5, orderString.value), None), [ReadBody])
  }

  /** FlaskV3 `test()`: the token must be a key of the dict parsed from
      the token file, whose text is `tokenFile`. */
  function HandleV3(token: Option<string>, orderString: Option<string>, tokenFile: string,
                    md5: string -> string): (h: Handled<string>)
    ensures h.effects == [] <==> !Present(token)
    ensures h.effects != [] ==> h.effects[0] == ReadTokenFile
    ensures ReadBody in h.effects ==> h.response.Signed? || h.response == Rejected(BadBody)
  {
    if !Present(token) then Handled(Rejected(AuthFailed), [])
    else
      match TokenFile.ReadUserDict(tokenFile)
      case Failure(_) => Handled(ServerError, [ReadTokenFile])
      case Success(users) =>
        match PyDict.Get(users, token.value)
        case None => Handled(Rejected(AuthFailed), [ReadTokenFile])
        case Some(name) =>
          if !Present(orderString) then Handled(Rejected(BadBody), [ReadTokenFile, ReadBody])
          else Handled(Signed(Sign(md5, orderString.value), Some(name)), [ReadTokenFile, ReadBody])
  }

  /** FlaskV4 `test()`: the token must match the UUID of some row of the
      `user` table; `engine` gives the rows SQLite returns for a query and
      its parameters. The user reported is the second column of the first
      row. */
  function HandleV4(token: Option<string>, orderString: Option<string>,
                    engine: (string, seq<Value>) -> seq<Row>, md5: string -> string): (h: Handled<Value>)
    ensures h.effects == [] <==> !Present(token)
    ensures h.effects != [] ==> h.effects[0] == QueryUsers(UserQuery, [Text(token.value)])
    ensures h.response.Signed? ==> ReadBody in h.effects
  {
    if !Present(token) then Handled(Rejected(AuthFailed), [])
    else
      var params := [Text(token.value)];
      var lookup := QueryUsers(UserQuery, params);
      var result := engine(UserQuery, params);
      if result == [] then Handled(Rejected(AuthFailed), [lookup])
      else if !Present(orderString) then Handled(Rejected(BadBody), [lookup, ReadBody])
      // result[0][1] is read after signing: a row of fewer than two columns raises IndexError
      else if |result[0]| < 2 then Handled(ServerError, [lookup, ReadBody])
      else Handled(Signed(Sign(md5, orderString.value), Some(result[0][1])), [lookup, ReadBody])
  }

  /** The V2 response with the authenticated user added to a success. */
  function WithUser<U>(r: Response<U>, user: U): Response<U> {
    if r.Signed? then Signed(r.data, Some(user)) else r
  }

  // ---------------------------------------------------------------
  // FlaskV2
  // ---------------------------------------------------------------

  /** V2 signs every request with a non-empty payload, the payload going
      first and the salt after it, and has no user to report; an empty or
      missing payload is a bad body. */
  lemma V2Outcome<U>(orderString: Option<string>, md5: string -> string)
    ensures var r := HandleV2<U>(orderString, md5).response;
      && (r.Signed? <==> Present(orderString))
      && (r.Signed? ==> r.data == md5(orderString.value + Salt) && r.user == None)
      && (!r.Signed? ==> r == Rejected(BadBody))
  {
  }

  /** The salted message determines the payload: two different payloads
      never hand MD5 the same input. */
  lemma SaltedMessageInjective(a: string, b: string)
    requires a + Salt == b + Salt
    ensures a == b
  {
    assert |a| == |b|;
    assert a == (a + Salt)[..|a|];
  }

  // ---------------------------------------------------------------
  // FlaskV3
  // ---------------------------------------------------------------

  /** A missing or empty token is refused before the token file or the
      body is read. */
  lemma V3TokenFirst(token: Option<string>, orderString: Option<string>, tokenFile: string,
                     md5: string -> string)
    requires !Present(token)
    ensures HandleV3(token, orderString, tokenFile, md5) == Handled(Rejected(AuthFailed), [])
  {
  }

  /** Once the token resolves to a user, V3 answers as V2 does and adds
      that user to a success; whenever the token does not resolve, the
      body is never read. */
  lemma V3ExtendsV2(token: Option<string>, orderString: Option<string>, tokenFile: string,
                    md5: string -> string)
    requires Present(token)
    ensures var h := HandleV3(token, orderString, tokenFile, md5);
      match TokenFile.ReadUserDict(tokenFile)
      case Failure(_) => h == Handled(ServerError, [ReadTokenFile])
      case Success(users) =>
        if token.value in PyDict.Keys(users) then
          var name := PyDict.Get(users, token.value).value;
          var v2 := HandleV2<string>(orderString, md5);
          h.response == WithUser(v2.response, name) && h.effects == [ReadTokenFile] + v2.effects
        else
          h == Handled(Rejected(AuthFailed), [ReadTokenFile])
  {
  }

  /** V3 signs exactly when the token is present, the file parses, the
      token is one of its keys and the payload is present; the user is
      then the name the file gives the token. */
  lemma V3SignsExactly(token: Option<string>, orderString: Option<string>, tokenFile: string,
                       md5: string -> string)
    ensures var r := HandleV3(token, orderString, tokenFile, md5).response;
      && (r.Signed? <==>
            Present(token) && TokenFile.ReadUserDict(tokenFile).Success?
            && token.value in PyDict.Keys(TokenFile.ReadUserDict(tokenFile).value)
            && Present(orderString))
      && (r.Signed? ==>
            r.data == Sign(md5, orderString.value)
            && r.user == PyDict.Get(TokenFile.ReadUserDict(tokenFile).value, token.value))
  {
  }

  /** A single malformed line anywhere in the token file turns every
      request that carries a token into a server error. */
  lemma {:induction false} V3MalformedFile(token: Option<string>, orderString: Option<string>,
                                           tokenFile: string, md5: string -> string, bad: nat)
    requires Present(token)
    requires var lines := PyFile.ReadLines(tokenFile);
      bad < |lines| && TokenFile.ParseLine(lines[bad]).Failure?
    ensures HandleV3(token, orderString, tokenFile, md5) == Handled(ServerError, [ReadTokenFile])
  {
    TokenFile.UserDictSucceeds(PyFile.ReadLines(tokenFile));
  }

  /** With a well-formed file, the name V3 reports for a token is the one
      on the last line carrying that token. */
  lemma V3LastLineWins(token: Option<string>, orderString: Option<string>, tokenFile: string,
                       md5: string -> string, i: nat)
    requires var lines := PyFile.ReadLines(tokenFile);
      && (forall k | 0 <= k < |lines| :: TokenFile.ParseLine(lines[k]).Success?)
      && i < |lines| && Present(token) && Present(orderString)
      && TokenFile.ParseLine(lines[i]).value.0 == token.value
      && (forall j | i < j < |lines| :: TokenFile.ParseLine(lines[j]).value.0 != token.value)
    ensures HandleV3(token, orderString, tokenFile, md5).response
      == Signed(Sign(md5, orderString.value), Some(TokenFile.ParseLine(PyFile.ReadLines(tokenFile)[i]).value.1))
  {
    TokenFile.UserDictLastWins(PyFile.ReadLines(tokenFile), i);
  }

  // ---------------------------------------------------------------
  // FlaskV4
  // ---------------------------------------------------------------

  /** A missing or empty token is refused before the database or the
      body is touched. */
  lemma V4TokenFirst(token: Option<string>, orderString: Option<string>,
                     engine: (string, seq<Value>) -> seq<Row>, md5: string -> string)
    requires !Present(token)
    ensures HandleV4(token, orderString, engine, md5) == Handled(Rejected(AuthFailed), [])
  {
  }

  /** A present token is looked up first, as `UUID=?` in table `user`
      with the token as the one parameter; an empty result is refused
      before the body is read. */
  lemma V4LookupFirst(token: Option<string>, orderString: Option<string>,
                      engine: (string, seq<Value>) -> seq<Row>, md5: string -> string)
    requires Present(token)
    ensures var h := HandleV4(token, orderString, engine, md5);
      && UserQuery == "SELECT * FROM user WHERE UUID=?"
      && |h.effects| > 0 && h.effects[0] == QueryUsers(UserQuery, [Text(token.value)])
      && (engine(UserQuery, [Text(token.value)]) == [] ==> h == Handled(Rejected(AuthFailed), h.effects[..1]))
  {
  }

  /** Once the lookup returns a row, V4 answers as V2 does and adds the
      row's second column to a success (a row of fewer than two columns
      makes the success a server error). */
  lemma V4ExtendsV2(token: Option<string>, orderString: Option<string>,
                    engine: (string, seq<Value>) -> seq<Row>, md5: string -> string)
    requires Present(token)
    ensures var rows := engine(UserQuery, [Text(token.value)]);
      var h := HandleV4(token, orderString, engine, md5);
      var v2 := HandleV2<Value>(orderString, md5);
      rows != [] ==>
        && h.effects == [QueryUsers(UserQuery, [Text(token.value)])] + v2.effects
        && (if |rows[0]| >= 2 then h.response == WithUser(v2.response, rows[0][1])
            else h.response == if Present(orderString) then ServerError else v2.response)
  {
  }

  /** V4 signs exactly when the token is present, the lookup returns a
      row of at least two columns and the payload is present; the user is
      then the second column of the first row. */
  lemma V4SignsExactly(token: Option<string>, orderString: Option<string>,
                       engine: (string, seq<Value>) -> seq<Row>, md5: string -> string)
    ensures var r := HandleV4(token, orderString, engine, md5).response;
      && (r.Signed? <==>
            Present(token) && Present(orderString)
            && var rows := engine(UserQuery, [Text(token.value)]);
               rows != [] && |rows[0]| >= 2)
      && (r.Signed? ==>
            r.data == Sign(md5, orderString.value)
            && r.user == Some(engine(UserQuery, [Text(token.value)])[0][1]))
  {
  }

  // ---------------------------------------------------------------
  // The file-backed and the database-backed variants agree
  // ---------------------------------------------------------------

  /** A row of the `user` table: `id`, `name`, `UUID`, in that order. */
  datatype UserRecord = UserRecord(id: int, name: string, uuid: string)

  function TableRow(u: UserRecord): Row {
    [Integer(u.id), Text(u.name), Text(u.uuid)]
  }

  /** The token file's line for a user: `UUID,name`. */
  function FileLine(u: UserRecord): string {
    u.uuid + "," + u.name + "\n"
  }

  /** The rows `SELECT * FROM user WHERE UUID=?` returns, in table order. */
  function Matching(users: seq<UserRecord>, uuid: string): seq<Row> {
    if users == [] then []
    else if users[0].uuid == uuid then [TableRow(users[0])] + Matching(users[1..], uuid)
    else Matching(users[1..], uuid)
  }

  /** The engine answers the user lookup from the table `users`. */
  ghost predicate ServesUsers(engine: (string, seq<Value>) -> seq<Row>, users: seq<UserRecord>) {
    forall uuid :: engine(UserQuery, [Text(uuid)]) == Matching(users, uuid)
  }

  /** Users whose UUIDs are unique (the column is UNIQUE) and whose UUIDs
      and names can be written to the token file and read back: no comma,
      no line break, and no whitespace where `strip()` would remove it. */
  predicate Storable(users: seq<UserRecord>) {
    && (forall i, j | 0 <= i < j < |users| :: users[i].uuid != users[j].uuid)
    && (forall u <- users :: ',' !in u.uuid && ',' !in u.name)
    && (forall u <- users :: '\n' !in u.uuid && '\r' !in u.uuid && '\n' !in u.name && '\r' !in u.name)
    && (forall u <- users :: u.uuid == [] || !PyStr.IsSpace(u.uuid[0]))
    && (forall u <- users :: u.name == [] || !PyStr.IsSpace(u.name[|u.name| - 1]))
  }

  /** The response with its user turned into the `TEXT` value SQLite holds. */
  function AsTextUser(r: Response<string>): Response<Value> {
    match r
    case Rejected(e) => Rejected(e)
    case Signed(d, u) => Signed(d, if u.Some? then Some(Text(u.value)) else None)
    case ServerError => ServerError
  }

  /** The token file listing `users`, one line each, in table order. */
  function FileLines(users: seq<UserRecord>): seq<string> {
    seq(|users|, i requires 0 <= i < |users| => FileLine(users[i]))
  }

  /** The text of the token file listing `users`. */
  function FileText(users: seq<UserRecord>): string {
    PyFile.Concat(FileLines(users))
  }

  /** The UUID-to-name dict of `users`, in table order. */
  function Credentials(users: seq<UserRecord>): PyDict.Dict<string> {
    seq(|users|, i requires 0 <= i < |users| => (users[i].uuid, users[i].name))
  }

  /** `get_user_dict` reads the file written for `users` back as exactly
      their UUID-to-name dict. */
  lemma FileParses(users: seq<UserRecord>)
    requires Storable(users)
    ensures PyFile.ReadLines(FileText(users)) == FileLines(users)
    ensures TokenFile.ReadUserDict(FileText(users)) == Success(Credentials(users))
  {
    var lines := FileLines(users);
    forall i | 0 <= i < |lines| ensures PyFile.IsLine(lines[i]) {
      assert users[i] in users;
      FileLineIsLine(users[i]);
    }
    PyFile.ReadLinesConcat(lines);
    LinesParse(users);
  }

  /** Why `Storable` excludes line breaks: a name `a + "\n" + b` splits
      the user's record over two lines of the file, and the second line
      has no comma, so reading the file raises on it. */
  lemma BrokenNameBreaksFile(id: int, uuid: string, a: string, b: string)
    requires ',' !in uuid && ',' !in a && ',' !in b
    requires '\n' !in uuid && '\r' !in uuid && '\n' !in a && '\r' !in a && '\n' !in b && '\r' !in b
    requires uuid == [] || !PyStr.IsSpace(uuid[0])
    requires a == [] || !PyStr.IsSpace(a[|a| - 1])
    requires b != [] && !PyStr.IsSpace(b[0]) && !PyStr.IsSpace(b[|b| - 1])
    ensures var users := [UserRecord(id, a + "\n" + b, uuid)];
      && PyFile.ReadLines(FileText(users)) == [FileLine(UserRecord(id, a, uuid)), b + "\n"]
      && TokenFile.ReadUserDict(FileText(users)) == Failure(TokenFile.UnpackError(1, 1))
  {
    var users := [UserRecord(id, a + "\n" + b, uuid)];
    var first, second := FileLine(UserRecord(id, a, uuid)), b + "\n";
    var lines := [first, second];
    assert FileText(users) == PyFile.Concat(lines) by {
      var fl := FileLines(users);
      assert |fl| == 1 && fl[0] == FileLine(users[0]);
      assert FileLine(users[0]) == first + second;
      assert PyFile.Concat(fl) == fl[0] + PyFile.Concat(fl[1..]);
      assert PyFile.Concat(lines) == first + PyFile.Concat(lines[1..]);
      assert lines[1..] == [second];
      assert PyFile.Concat([second]) == second + PyFile.Concat([second][1..]);
    }
    FileLineIsLine(UserRecord(id, a, uuid));
    assert PyFile.IsLine(second) by {
      forall k | 0 <= k < |second| - 1 ensures second[k] != '\n' && second[k] != '\r' {
        assert second[k] == b[k];
      }
    }
    PyFile.ReadLinesConcat(lines);
    TokenFile.ParseLineRoundTrip(uuid, a);
    PyStr.StripNewline(b);
    PyStr.SplitAbsent(b, ',');
    var rs: seq<TokenFile.LineResult> := TokenFile.Parsed(lines);
    assert rs[0] == TokenFile.ParseLine(first) && rs[1] == TokenFile.ParseLine(second);
    var none: seq<TokenFile.LineResult> := rs[..1][..0];
    assert |none| == 0;
    assert TokenFile.Collect(rs[..1]).Success?;
  }

  /** A line break in a UUID splits the record the other way: the first
      line, the UUID's head, has no comma, and reading raises on it. */
  lemma BrokenUuidBreaksFile(id: int, a: string, b: string, name: string)
    requires ',' !in a && ',' !in b && ',' !in name
    requires '\n' !in a && '\r' !in a && '\n' !in b && '\r' !in b && '\n' !in name && '\r' !in name
    requires a != [] && !PyStr.IsSpace(a[0]) && !PyStr.IsSpace(a[|a| - 1])
    ensures var users := [UserRecord(id, name, a + "\n" + b)];
      && PyFile.ReadLines(FileText(users)) == [a + "\n", FileLine(UserRecord(id, name, b))]
      && TokenFile.ReadUserDict(FileText(users)) == Failure(TokenFile.UnpackError(0, 1))
  {
    var users := [UserRecord(id, name, a + "\n" + b)];
    var first, second := a + "\n", FileLine(UserRecord(id, name, b));
    var lines := [first, second];
    assert FileText(users) == PyFile.Concat(lines) by {
      var fl := FileLines(users);
      assert |fl| == 1 && fl[0] == FileLine(users[0]);
      assert FileLine(users[0]) == first + second;
      assert PyFile.Concat(fl) == fl[0] + PyFile.Concat(fl[1..]);
      assert PyFile.Concat(lines) == first + PyFile.Concat(lines[1..]);
      assert lines[1..] == [second];
      assert PyFile.Concat([second]) == second + PyFile.Concat([second][1..]);
    }
    FileLineIsLine(UserRecord(id, name, b));
    assert PyFile.IsLine(first) by {
      forall k | 0 <= k < |first| - 1 ensures first[k] != '\n' && first[k] != '\r' {
        assert first[k] == a[k];
      }
    }
    PyFile.ReadLinesConcat(lines);
    PyStr.StripNewline(a);
    PyStr.SplitAbsent(a, ',');
    var rs: seq<TokenFile.LineResult> := TokenFile.Parsed(lines);
    assert rs[0] == TokenFile.ParseLine(first) == Failure(1);
    var none: seq<TokenFile.LineResult> := rs[..1][..0];
    assert |none| == 0;
    assert TokenFile.Collect(rs[..1]) == Failure(TokenFile.UnpackError(0, 1));
  }

  /** Why `Storable` excludes whitespace at the end of a name: `strip()`
      removes it from the file's line, while the `user` table keeps it,
      so V3 and V4 report different users for the same token. */
  lemma PaddedNameDiverges(id: int, uuid: string, name: string, orderString: Option<string>,
                           engine: (string, seq<Value>) -> seq<Row>, md5: string -> string)
    requires ',' !in uuid && ',' !in name
    requires '\n' !in uuid && '\r' !in uuid && '\n' !in name && '\r' !in name
    requires uuid != [] && !PyStr.IsSpace(uuid[0])
    requires name == [] || !PyStr.IsSpace(name[|name| - 1])
    requires Present(orderString)
    requires ServesUsers(engine, [UserRecord(id, name + " ", uuid)])
    ensures var users := [UserRecord(id, name + " ", uuid)];
      && HandleV3(Some(uuid), orderString, FileText(users), md5).response
         == Signed(Sign(md5, orderString.value), Some(name))
      && HandleV4(Some(uuid), orderString, engine, md5).response
         == Signed(Sign(md5, orderString.value), Some(Text(name + " ")))
      && HandleV4(Some(uuid), orderString, engine, md5).response
         != AsTextUser(HandleV3(Some(uuid), orderString, FileText(users), md5).response)
  {
    var u := UserRecord(id, name + " ", uuid);
    var users := [u];
    var lines := FileLines(users);
    assert lines == [FileLine(u)];
    FileLineIsLine(u);
    PyFile.ReadLinesConcat(lines);
    assert FileLine(u) == uuid + "," + name + " \n";
    TokenFile.ParseLinePadded(uuid, name, " \n");
    var rs: seq<TokenFile.LineResult> := TokenFile.Parsed(lines);
    assert rs == [Success((uuid, name))];
    var none: seq<TokenFile.LineResult> := rs[..0];
    assert |none| == 0;
    assert TokenFile.Collect(none) == Success([]);
    assert PyDict.Set([], uuid, name) == [(uuid, name)];
    assert TokenFile.Collect(rs) == Success([(uuid, name)]);
    assert PyFile.ReadLines(FileText(users)) == lines;
    assert TokenFile.ReadUserDict(FileText(users)) == Success([(uuid, name)]);
    MatchingUnique(users, 0);
    assert engine(UserQuery, [Text(uuid)]) == [TableRow(u)];
    assert |name + " "| != |name|;
  }

  /** A user's line is one complete line of the file. */
  lemma FileLineIsLine(u: UserRecord)
    requires '\n' !in u.uuid && '\r' !in u.uuid && '\n' !in u.name && '\r' !in u.name
    ensures PyFile.IsLine(FileLine(u))
  {
    var line := FileLine(u);
    forall k | 0 <= k < |line| - 1 ensures line[k] != '\n' && line[k] != '\r' {
      if k < |u.uuid| {
        assert line[k] == u.uuid[k];
      } else if k > |u.uuid| {
        assert line[k] == u.name[k - |u.uuid| - 1];
      }
    }
  }

  /** The users' lines parse into exactly their UUID-to-name dict. */
  lemma LinesParse(users: seq<UserRecord>)
    requires Storable(users)
    ensures TokenFile.UserDict(FileLines(users)) == Success(Credentials(users))
  {
    var lines := FileLines(users);
    forall i | 0 <= i < |users|
      ensures TokenFile.ParseLine(lines[i]) == Success((users[i].uuid, users[i].name))
    {
      assert users[i] in users;
      TokenFile.ParseLineRoundTrip(users[i].uuid, users[i].name);
    }
    TokenFile.UserDictFromEntries(lines);
    var pairs := TokenFile.Entries(lines);
    assert pairs == Credentials(users);
    assert PyDict.DistinctKeys(pairs) by {
      forall a, b | 0 <= a < b < |pairs| ensures PyDict.Keys(pairs)[a] != PyDict.Keys(pairs)[b] {
        assert pairs[a].0 == users[a].uuid && pairs[b].0 == users[b].uuid;
      }
    }
    PyDict.FromPairsOfDistinct(pairs);
  }

  /** In the dict of users with unique UUIDs, a user's UUID gives that
      user's name. */
  lemma CredentialsGet(users: seq<UserRecord>, i: nat)
    requires Storable(users) && i < |users|
    ensures PyDict.Get(Credentials(users), users[i].uuid) == Some(users[i].name)
  {
    var creds := Credentials(users);
    assert PyDict.DistinctKeys(creds) by {
      forall a, b | 0 <= a < b < |creds| ensures PyDict.Keys(creds)[a] != PyDict.Keys(creds)[b] {
      }
    }
    PyDict.GetAt(creds, i);
  }

  /** With the same users in the token file (one line each) and in the
      `user` table, V3 and V4 give every request the same answer. */
  lemma FileAndTableAgree(token: Option<string>, orderString: Option<string>, users: seq<UserRecord>,
                          engine: (string, seq<Value>) -> seq<Row>, md5: string -> string)
    requires Storable(users) && ServesUsers(engine, users)
    ensures HandleV4(token, orderString, engine, md5).response
      == AsTextUser(HandleV3(token, orderString, FileText(users), md5).response)
  {
    if Present(token) {
      if i :| 0 <= i < |users| && users[i].uuid == token.value {
        KnownUserAgrees(token, orderString, users, engine, md5, i);
      } else {
        UnknownTokenAgrees(token, orderString, users, engine, md5);
      }
    }
  }

  /** The token of a listed user: both variants find that user's name. */
  lemma KnownUserAgrees(token: Option<string>, orderString: Option<string>, users: seq<UserRecord>,
                        engine: (string, seq<Value>) -> seq<Row>, md5: string -> string, i: nat)
    requires Storable(users) && ServesUsers(engine, users)
    requires Present(token) && i < |users| && users[i].uuid == token.value
    ensures HandleV4(token, orderString, engine, md5).response
      == AsTextUser(HandleV3(token, orderString, FileText(users), md5).response)
  {
    FileParses(users);
    CredentialsGet(users, i);
    MatchingUnique(users, i);
    assert engine(UserQuery, [Text(token.value)]) == [TableRow(users[i])];
  }

  /** A token no user has: both variants refuse it. */
  lemma UnknownTokenAgrees(token: Option<string>, orderString: Option<string>, users: seq<UserRecord>,
                           engine: (string, seq<Value>) -> seq<Row>, md5: string -> string)
    requires Storable(users) && ServesUsers(engine, users)
    requires Present(token) && forall i | 0 <= i < |users| :: users[i].uuid != token.value
    ensures HandleV4(token, orderString, engine, md5).response == Rejected(AuthFailed)
    ensures HandleV3(token, orderString, FileText(users), md5).response == Rejected(AuthFailed)
  {
    FileParses(users);
    MatchingNone(users, token.value);
    assert engine(UserQuery, [Text(token.value)]) == [];
    assert token.value !in PyDict.Keys(Credentials(users));
  }

  /** A UUID no user has matches no row. */
  lemma {:induction false} MatchingNone(users: seq<UserRecord>, uuid: string)
    requires forall i | 0 <= i < |users| :: users[i].uuid != uuid
    ensures Matching(users, uuid) == []
  {
    if users != [] {
      MatchingNone(users[1..], uuid);
    }
  }

  /** With unique UUIDs, a user's UUID matches that user's row alone. */
  lemma {:induction false} MatchingUnique(users: seq<UserRecord>, i: nat)
    requires i < |users|
    requires forall a, b | 0 <= a < b < |users| :: users[a].uuid != users[b].uuid
    ensures Matching(users, users[i].uuid) == [TableRow(users[i])]
  {
    if i == 0 {
      MatchingNone(users[1..], users[0].uuid);
    } else {
      MatchingUnique(users[1..], i - 1);
    }
  }
}

=== FILE: token_file.dfy ===
/** `get_user_dict` (FlaskV3.py, copied unchanged into FlaskV4.py): reads
    the token file `db.txt` line by line, strips each line, splits it on
    `,` into a token and a name, and stores `info_dict[token] = name`.
    The file is given by its decoded text; `PyFile.ReadLines` gives the
    lines `for line in f` yields. */
module TokenFile {
  import opened Wrappers
  import opened PyStr
  import PyDict
  import PyFile

  /** The ValueError of `token, name = line.split(',')`: the line (from 0)
      and how many fields it split into instead of two. */
  datatype UnpackError = UnpackError(line: nat, fields: nat)

  /** One line of the file: its stripped text split on `,`, which must
      give exactly two fields; otherwise the number of fields it gave. */
  function ParseLine(line: string): (r: Result<(string, string), nat>)
    ensures r.Failure? ==> r.error != 2
    ensures r.Success? ==> ',' !in r.value.0 && ',' !in r.value.1
  {
    var fields := Split(Strip(line), ',');
    if |fields| == 2 then Success((fields[0], fields[1])) else Failure(|fields|)
  }

  type LineResult = Result<(string, string), nat>

  /** The parse of every line, in file order. */
  function Parsed(lines: seq<string>): seq<LineResult> {
    seq(|lines|, i requires 0 <= i < |lines| => ParseLine(lines[i]))
  }

  /** Stores the parsed pairs one after the other, stopping at the first
      line that did not split into two fields. */
  function Collect(rs: seq<LineResult>): (r: Result<PyDict.Dict<string>, UnpackError>)
    ensures r.Success? ==> PyDict.DistinctKeys(r.value)
  {
    if rs == [] then Success([])
    else
      var n := |rs| - 1;
      match Collect(rs[..n])
      case Failure(e) => Failure(e)
      case Success(d) =>
        match rs[n]
        case Failure(k) => Failure(UnpackError(n, k))
        case Success(entry) =>
          PyDict.SetDistinct(d, entry.0, entry.1);
          Success(PyDict.Set(d, entry.0, entry.1))
  }

  /** The dict `get_user_dict` returns, or the error its first malformed
      line raises. */
  function UserDict(lines: seq<string>): (r: Result<PyDict.Dict<string>, UnpackError>)
    ensures r.Success? ==> PyDict.DistinctKeys(r.value)
  {
    Collect(Parsed(lines))
  }

  /** `get_user_dict()` on a token file holding `content`. */
  function ReadUserDict(content: string): Result<PyDict.Dict<string>, UnpackError> {
    UserDict(PyFile.ReadLines(content))
  }

  /** `get_user_dict`: fills the dict in place, one line of the file at a
      time. */
  method GetUserDict(content: string) returns (r: Result<PyDict.Dict<string>, UnpackError>)
    ensures r == ReadUserDict(content)
  {
    var lines := PyFile.ReadLines(content);
    ghost var rs := Parsed(lines);
    var info: PyDict.Dict<string> := [];
    var i := 0;
    while i < |lines|
      invariant 0 <= i <= |lines|
      invariant Collect(rs[..i]) == Success(info)
    {
      var line := Strip(lines[i]);
      var fields := Split(line, ',');
      assert rs[..i + 1][..i] == rs[..i];
      if |fields| != 2 {
        r := Failure(UnpackError(i, |fields|));
        FailureSticks(rs, i + 1);
        return;
      }
      info := PyDict.Set(info, fields[0], fields[1]);
      i := i + 1;
    }
    assert rs[..|lines|] == rs;
    r := Success(info);
  }

  /** Once a line has raised, the lines after it change nothing. */
  lemma {:induction false} FailureSticks(rs: seq<LineResult>, k: nat)
    requires k <= |rs| && Collect(rs[..k]).Failure?
    ensures Collect(rs) == Collect(rs[..k])
    decreases |rs| - k
  {
    if k < |rs| {
      assert rs[..k + 1][..k] == rs[..k];
      FailureSticks(rs, k + 1);
    } else {
      assert rs[..k] == rs;
    }
  }

  /** A line is accepted exactly when its stripped text holds one comma;
      the token and the name are then the text before and after it, and
      neither contains a comma. A blank line (no comma) and a line with
      two commas both raise. */
  lemma ParseLineFields(line: string)
    ensures ParseLine(line).Success? <==> Count(Strip(line), ',') == 1
    ensures ParseLine(line).Failure? ==> ParseLine(line).error == Count(Strip(line), ',') + 1
    ensures ParseLine(line).Success? ==>
      var (token, name) := ParseLine(line).value;
      token + "," + name == Strip(line) && ',' !in token && ',' !in name
  {
    var fields := Split(Strip(line), ',');
    JoinSplit(Strip(line), ',');
    if |fields| == 2 {
      assert fields == [fields[0], fields[1]];
      assert fields[0] in fields && fields[1] in fields;
    }
  }

  /** A line of whitespace only splits into one empty field and raises. */
  lemma BlankLineRaises(line: string)
    requires forall k | 0 <= k < |line| :: IsSpace(line[k])
    ensures ParseLine(line) == Failure(1)
  {
  }

  /** The line the file holds for a token and a name, with its newline,
      reads back as that token and name, provided neither holds a comma
      and the line carries no whitespace at its ends. */
  lemma ParseLineRoundTrip(token: string, name: string)
    requires ',' !in token && ',' !in name
    requires token == [] || !IsSpace(token[0])
    requires name == [] || !IsSpace(name[|name| - 1])
    ensures ParseLine(token + "," + name + "\n") == Success((token, name))
  {
    var text := token + "," + name;
    assert text[0] == if token == [] then ',' else token[0];
    assert text[|text| - 1] == if name == [] then ',' else name[|name| - 1];
    StripNewline(text);
    assert text == Join([','], [token, name]);
    SplitJoin([token, name], ',');
  }

  /** Whitespace after the name, a newline or more, is lost on reading:
      `token,name<pad>` reads back as the token and the bare name. */
  lemma ParseLinePadded(token: string, name: string, pad: string)
    requires ',' !in token && ',' !in name
    requires token != [] && !IsSpace(token[0])
    requires name == [] || !IsSpace(name[|name| - 1])
    requires forall k | 0 <= k < |pad| :: IsSpace(pad[k])
    ensures ParseLine(token + "," + name + pad) == Success((token, name))
  {
    var text := token + "," + name;
    assert text[0] == token[0];
    assert text[|text| - 1] == if name == [] then ',' else name[|name| - 1];
    StripPadding(text, pad);
    assert text == Join([','], [token, name]);
    SplitJoin([token, name], ',');
  }

  lemma {:induction false} CollectSucceeds(rs: seq<LineResult>)
    ensures Collect(rs).Success? <==> forall i | 0 <= i < |rs| :: rs[i].Success?
  {
    if rs != [] {
      var n := |rs| - 1;
      CollectSucceeds(rs[..n]);
      assert forall i | 0 <= i < n :: rs[..n][i] == rs[i];
    }
  }

  /** Parsing stops at the first malformed line: `get_user_dict` succeeds
      exactly when every line splits into two fields. */
  lemma UserDictSucceeds(lines: seq<string>)
    ensures UserDict(lines).Success? <==> forall i | 0 <= i < |lines| :: ParseLine(lines[i]).Success?
  {
    var rs := Parsed(lines);
    assert forall i | 0 <= i < |lines| :: rs[i] == ParseLine(lines[i]);
    CollectSucceeds(rs);
  }

  lemma {:induction false} CollectFirstError(rs: seq<LineResult>)
    requires Collect(rs).Failure?
    ensures var e := Collect(rs).error;
      && e.line < |rs| && rs[e.line] == Failure(e.fields)
      && forall i | 0 <= i < e.line :: rs[i].Success?
  {
    var n := |rs| - 1;
    assert forall i | 0 <= i < n :: rs[..n][i] == rs[i];
    if Collect(rs[..n]).Failure? {
      CollectFirstError(rs[..n]);
    } else {
      CollectSucceeds(rs[..n]);
    }
  }

  /** The error names the first malformed line and how many fields it
      split into; every line before it was well formed. */
  lemma UserDictFirstError(lines: seq<string>)
    requires UserDict(lines).Failure?
    ensures var e := UserDict(lines).error;
      && e.line < |lines|
      && ParseLine(lines[e.line]) == Failure(e.fields)
      && forall i | 0 <= i < e.line :: ParseLine(lines[i]).Success?
  {
    var rs := Parsed(lines);
    assert forall i | 0 <= i < |lines| :: rs[i] == ParseLine(lines[i]);
    CollectFirstError(rs);
  }

  /** The (token, name) pairs of a file whose lines are all well formed. */
  function Entries(lines: seq<string>): seq<(string, string)>
    requires forall i | 0 <= i < |lines| :: ParseLine(lines[i]).Success?
  {
    seq(|lines|, i requires 0 <= i < |lines| => ParseLine(lines[i]).value)
  }

  lemma {:induction false} CollectFromPairs(rs: seq<LineResult>)
    requires forall i | 0 <= i < |rs| :: rs[i].Success?
    ensures Collect(rs) == Success(PyDict.FromPairs(seq(|rs|, i requires 0 <= i < |rs| => rs[i].value)))
  {
    if rs != [] {
      var n := |rs| - 1;
      CollectFromPairs(rs[..n]);
      var pairs := seq(|rs|, i requires 0 <= i < |rs| => rs[i].value);
      assert pairs[..n] == seq(n, i requires 0 <= i < n => rs[..n][i].value);
    }
  }

  /** On a well-formed file, the loop amounts to building a dict from the
      lines' pairs in file order. */
  lemma UserDictFromEntries(lines: seq<string>)
    requires forall i | 0 <= i < |lines| :: ParseLine(lines[i]).Success?
    ensures UserDict(lines) == Success(PyDict.FromPairs(Entries(lines)))
  {
    var rs := Parsed(lines);
    CollectFromPairs(rs);
    assert seq(|rs|, i requires 0 <= i < |rs| => rs[i].value) == Entries(lines);
  }

  /** The keys of the dict are exactly the tokens of the lines. */
  lemma UserDictKeys(lines: seq<string>, token: string)
    requires forall i | 0 <= i < |lines| :: ParseLine(lines[i]).Success?
    ensures UserDict(lines).Success? && token in PyDict.Keys(UserDict(lines).value) <==>
      exists i | 0 <= i < |lines| :: ParseLine(lines[i]).value.0 == token
  {
    UserDictFromEntries(lines);
    var pairs := Entries(lines);
    var d := PyDict.FromPairs(pairs);
    PyDict.FromPairsKeys(pairs, token);
    if token in PyDict.Keys(d) {
      var i :| 0 <= i < |pairs| && PyDict.Keys(pairs)[i] == token;
      assert ParseLine(lines[i]).value.0 == token;
    }
    if exists i | 0 <= i < |lines| :: ParseLine(lines[i]).value.0 == token {
      var i :| 0 <= i < |lines| && ParseLine(lines[i]).value.0 == token;
      assert PyDict.Keys(pairs)[i] == token;
    }
  }

  /** When a token appears on several lines, the last of them gives its name. */
  lemma UserDictLastWins(lines: seq<string>, i: nat)
    requires forall k | 0 <= k < |lines| :: ParseLine(lines[k]).Success?
    requires i < |lines|
    requires forall j | i < j < |lines| :: ParseLine(lines[j]).value.0 != ParseLine(lines[i]).value.0
    ensures UserDict(lines).Success? && PyDict.Get(UserDict(lines).value, ParseLine(lines[i]).value.0) == Some(ParseLine(lines[i]).value.1)
  {
    UserDictFromEntries(lines);
    PyDict.FromPairsLastWins(Entries(lines), i);
  }
}

=== FILE: wrappers.dfy ===
/** Optional values and success-or-error results, used for Python's
    `None` returns and raised exceptions throughout the model. */
module Wrappers {

  datatype Option<+T> = None | Some(value: T)

  datatype Result<+R, +E> = Success(value: R) | Failure(error: E)
}
